=== FILE: README.md ===
# Question bank: a Dafny model of its core logic

This project models the logic of a small quiz-question bank. The bank is a Go/Gin REST server with a React admin client. The model covers:

- The server's **AI generation endpoint** (`generateQuestions` in `server/main.go`):
  - the binding checks on the request;
  - the error replies of the AI call;
  - the clean-up of the AI's text (`cleanJSONContent`, with the bracket-stack extraction);
  - the cascade of decodings in `parseAIResponse`;
  - the conversion of loosely typed questions (`convertMapToQuestion`, `convertSingleTempToQuestion`);
  - the fuzzy classifiers and `normalizeQuestion`;
  - placeholder questions, the count adjustment and the final validation.
- The **pagination** of the list endpoint (`Pagination`, `getQuestions`): binding with its fallback, and the row offset.
- The **domain enums** and the branching of the JSON column's `Value`/`Scan` (`server/models/question.go`).
- The **create/edit modal** of the client (`client/src/components/CreateQuestionModal.jsx`):
  - loading a stored question into the form, and building the payload from the form;
  - submitting it;
  - the AI tab's candidate selection and the confirm step.
- The **question-list page** of the client (`client/src/pages/QuestionManagement.jsx`). It is a state machine over the shown rows, the pagination, the filters, the selected rows and the modal. Every handler that can issue a request or show a notice returns the new state, the requests it issues and the notice it shows; the row-selection handler only returns the new state.

Everything is written as pure functions over immutable datatypes. Library behaviour the core relies on but that is not modelled becomes a parameter of the model. This covers encoding/json decodings, `fmt`'s `%v`/`%.0f`, the regular-expression repairs and network outcomes.

Files:

- `common.dfy` (`Common`): `Option`, `Result`, bytes.
- `text.dfy` (`Text`): the string functions the core uses:
  - Go's `strings.TrimSpace`, `ToUpper`/`ToLower`, `Contains` and `ReplaceAll`;
  - JavaScript's `split`/`join`;
  - decimal rendering.
- `models.dfy` (`Models`): question types, difficulties, the JSON column.
- `server_api.dfy` (`Api`): `QuestionRequest`, `AIGenerateRequest` and its binding.
- `server_normalize.dfy` (`Normalize`): the classifiers, normalisation, and conversion of loosely typed questions.
- `server_json_clean.dfy` (`JsonClean`): `cleanJSONContent`.
- `server_generate.dfy` (`Generate`): placeholders, `parseAIResponse`, count adjustment, the handler.
- `server_paging.dfy` (`Paging`): pagination binding and offset.
- `client_form.dfy` (`ClientForm`): the form of the modal.
- `client_ai.dfy` (`ClientAi`): the AI tab of the modal.
- `client_list.dfy` (`ClientList`): the list page.

## Model

| member | source | states |
|---|---|---|
| Models.ParseQuestionType | server/models/question.go:11-18 | only the three canonical type names are recognised, each as the type whose name it is |
| Models.ParseDifficulty | server/models/question.go:12-24 | only the three canonical difficulty names are recognised, each as the difficulty whose name it is |
| Models.QuestionTypeNames | server/models/question.go:14-18 | the type names are exactly `single_choice`, `multiple_choice`, `programming`, and each parses back to its type |
| Models.DifficultyNames | server/models/question.go:20-24 | the difficulty names are exactly `easy`, `medium`, `hard`, and each parses back to its difficulty |
| Models.Value | server/models/question.go:46-51 | a nil map is stored as SQL NULL with no error; a non-nil map is stored as bytes, with an error exactly when marshalling fails |
| Models.Scan | server/models/question.go:54-76 | NULL gives a nil map; a value that is neither bytes nor text is an error and leaves the map alone; empty bytes or text give an empty non-nil map; anything else is what unmarshalling yields |
| Models.ValueScanRoundTrip | server/models/question.go:46-76 | a map whose marshalled form unmarshals back to it survives a store and a load, nil included |
| Api.BindGenerate | server/main.go:38-43 | the request binds exactly when type, difficulty and language are present and the count is in 1..20; it is then passed on unchanged, and otherwise refused with the binding error |
| Normalize.ClassifyType | server/main.go:796-808 | the lower-cased text is single choice when it mentions "single"/单选题, or mentions none of the keywords; it is multiple choice when it mentions only the multiple keywords; it is programming when it mentions only the programming keywords (all three as iffs) |
| Normalize.ClassifyDifficulty | server/main.go:811-823 | easy when "easy"/简单 occurs; hard only when no easy or medium keyword occurs and a hard one does; medium otherwise (all three as iffs) |
| Normalize.ClassifyTypeOfName | server/main.go:796-808 | every canonical type name is classified as itself |
| Normalize.ClassifyDifficultyOfName | server/main.go:811-823 | every canonical difficulty name is classified as itself |
| Normalize.ClassifiersIgnoreCase | server/main.go:796-823 | upper-casing the text does not change either classification |
| Normalize.SingleKeywordWins | server/main.go:799-800 | any text containing "single" is single choice, whatever else it contains |
| Normalize.CleanAnswer | server/main.go:782-784 | the cleaned answer equals the reference clean-up: spaces dropped, letters upper-cased |
| Normalize.CleanAnswerIdempotent | server/main.go:782-784 | cleaning a cleaned answer changes nothing |
| Normalize.ToModelsJson | server/main.go:899-912 | a string map becomes a non-nil JSON map with the same keys and each value as a JSON string |
| Normalize.DefaultOptions | server/main.go:772-779 | the placeholder options have exactly the keys A, B, C, D |
| Normalize.NormalizeQuestion | server/main.go:748-793 | content is kept; an empty type, difficulty or language is taken from the request, a non-empty type or difficulty is classified; a choice question has a space-free upper-case answer and keeps the options it had, or gets the placeholder options A-D when it had none; a programming question has no options and an empty answer; any other type keeps options and answer |
| Normalize.NormalizeQuestions | server/main.go:740-745 | every question is normalised, in place and in order |
| Normalize.NormalizeIdempotentIff | server/main.go:748-823 | normalising twice equals normalising once exactly when each of type and difficulty is present in the question, or is empty or canonical in the request |
| Normalize.NormalizeIdempotent | server/main.go:748-823 | with a canonical request, normalisation is idempotent |
| Normalize.Show | server/main.go:582-585 | a JSON string is rendered as itself and null as `<nil>` |
| Normalize.ConvertOptions | server/main.go:532-571 | options are missing exactly when they arrive as a string that does not decode to a map |
| Normalize.ConvertAnswer | server/main.go:575-595 | a string answer is kept; an array answer is its elements, each rendered, joined by "," |
| Normalize.AnswerArrayJoin | server/main.go:578-588 | an array of labels becomes the labels joined by "," with no spaces added; its length is the labels' total length plus the separators; for comma-free labels, splitting at "," gives the labels back |
| Normalize.ConvertMapToQuestion | server/main.go:512-618 | a present type or difficulty is the classification of its `%v` text, a missing one comes from the request; a present content is its `%v` text and a missing content or answer is empty; the answer is converted; only a choice type has options, and it gets the placeholders when none were sent; language is the map's string or the request's |
| Normalize.TempFields | server/main.go:635-693 | a temporary question's field is looked at exactly when it is not null, and then with its value |
| Normalize.ConvertSingleTempToQuestion | server/main.go:631-737 | a null field is treated as missing: the type and difficulty come from the request, the content and answer are empty, a choice type gets the placeholder options; non-null fields are converted as in the map conversion, a type or difficulty being the classification of its `%v` text |
| Normalize.ConvertTempToQuestions | server/main.go:621-628 | every temporary question is converted, in order |
| Normalize.NullAnswerDiverges | server/main.go:573-714 | a null answer gives "" through the temporary struct, but `<nil>` through the generic map |
| JsonClean.StripFencesKeepsPlain | server/main.go:828-833 | trimmed text without a backtick comes through the trimming and fence removal unchanged |
| JsonClean.FirstOpener | server/main.go:837-843 | the position found holds `[` or `{` and no earlier position does; none is found exactly when the text has neither |
| JsonClean.FirstClose | server/main.go:845-868 | the length found is the first one, from the start length on, after which the bracket stack is empty; none is found exactly when it never empties |
| JsonClean.ExtractBalanced | server/main.go:845-869 | the bracket scan keeps a prefix of the text |
| JsonClean.ScanBalanced | server/main.go:849-868 | the loop that stops at the first empty stack returns that shortest balanced prefix, or the whole text |
| JsonClean.ExtractJSON | server/main.go:835-869 | text without an opener is left alone; otherwise the result is the bracket scan of the text from the first opener |
| JsonClean.ExtractJSONShape | server/main.go:835-869 | the result is a piece of the text starting at the first opener; no shorter prefix of it balances, and when it balances it ends with that opener's closer |
| JsonClean.ExtractJSONUnbalanced | server/main.go:835-869 | when the brackets never balance, the result is the whole text from the first opener on |
| JsonClean.ExtractJSONIdempotent | server/main.go:835-869 | extracting from the extracted text changes nothing |
| JsonClean.CleanJSONContent | server/main.go:826-895 | the cleaned text is trimmed |
| JsonClean.CleanKeepsCleanJSON | server/main.go:826-895 | trimmed, fence-free, balanced JSON with no single quotes, no bare literal after a colon and nothing for the repairs to fix comes through unchanged |
| Generate.PlaceholderContent | server/main.go:926 | the placeholder content is non-empty and contains the question's number in decimal |
| Generate.CreateDefaultQuestion | server/main.go:923-944 | type, difficulty and language are copied from the request; the content is non-empty and contains the number; a choice type gets options with exactly the keys A-D and answer "A"; any other type gets neither options nor answer |
| Generate.PlaceholdersDistinct | server/main.go:926 | placeholders with different numbers have different contents |
| Generate.CreateFallbackQuestions | server/main.go:915-921 | `count` placeholders (none for a non-positive count), the i-th numbered i+1 |
| Generate.AdjustCount | server/main.go:364-373 | exactly `count` questions; the first ones are kept in place; every padded place holds the placeholder with its 1-based number |
| Generate.FinalValidation | server/main.go:375-380 | same length; a question with type and content is kept; every other is replaced by the placeholder of its position |
| Generate.FinishGeneration | server/main.go:364-380 | exactly `count` questions, all with type and content; each usable question among the first `count` is kept in place, every other place holds its numbered placeholder |
| Generate.FallbackIsFinished | server/main.go:354-380 | the fallback list passes adjustment and validation untouched |
| Generate.ParseRawQuestion | server/main.go:494-509 | an element decoded as a question is normalised; one decoded only as a map is converted |
| Generate.Kept | server/main.go:477-484 | the elements the loop keeps are decodable elements of the array, as many as the array has decodable elements |
| Generate.KeptSingle | server/main.go:477-484 | a single element is kept exactly when it decodes |
| Generate.KeptAppend | server/main.go:477-484 | the kept elements of a concatenation are those of each part, in order, so the filter keeps the array's order |
| Generate.ParseRawArray | server/main.go:477-484 | element k of the result is the conversion of the k-th decodable element of the array, and there is one result per decodable element |
| Generate.ParseAIResponse | server/main.go:454-491 | it fails exactly when nothing decodes or an array yields no usable element; each successful decoding is dispatched to its conversion, and an array's result is the conversions of its decodable elements, in order; `Generate.ParseAIContent` applies it to the cleaned content, as `parseAIResponse` does with `cleanJSONContent` first |
| Generate.ReplyError | server/main.go:299-351 | the AI reply is refused (transport error, status other than 200, undecodable body, error message, no choices) exactly when it is not an answered 200 reply |
| Generate.HandleReply | server/main.go:299-384 | a refused reply gives a 500; an answered one gives exactly `count` questions, each with type and content |
| Generate.GenerateQuestions | server/main.go:268-384 | 400 exactly when binding fails; 500 exactly when the request binds but the AI reply is refused; otherwise exactly `count` questions, each with type and content |
| Generate.UndecodableGivesFallback | server/main.go:354-362 | an answered reply whose content nothing decodes gives the placeholders 1..count |
| Generate.GoodReplyIsNormalized | server/main.go:354-384 | when the content decodes as exactly `count` questions with type and content, the client gets those questions normalised, in order, and nothing else |
| Generate.NormalizeKeepsUsable | server/main.go:748-793 | normalisation never empties a type or content that was there |
| Generate.FinishKeepsUsable | server/main.go:364-380 | exactly `count` usable questions pass adjustment and validation untouched |
| Paging.WrapInt64 | server/main.go:142 | Go's 64-bit wrap-around: the result is in range, congruent modulo 2^64, and unchanged when already in range |
| Paging.BindInt | server/main.go:24-27 | a missing parameter binds as 0; a malformed or out-of-range one is an error |
| Paging.BindPagination | server/main.go:137-142 | the bound pagination satisfies the tags (page >= 1, size 1..100), and is either the default (1, 10) or the values sent |
| Paging.BindEchoesValid | server/main.go:137-142 | a valid page and size sent as numbers are bound as sent |
| Paging.BindMissingFallsBack | server/main.go:137-142 | with either parameter missing, both fall back to page 1 of size 10 |
| Paging.OffsetAsWritten | server/main.go:142 | the offset as Go computes it is a 64-bit value |
| Paging.Offset | server/main.go:142 | the intended offset is non-negative, at least page-1, and zero exactly on page 1 |
| Paging.NextPageOffset | server/main.go:142 | each page starts where the previous one ends |
| Paging.OffsetAsWrittenInRange | server/main.go:142 | Go's offset equals the intended one while the product fits in 64 bits |
| Paging.OffsetWrapsForHugePage | server/main.go:142 | page 2^62+1 of size 100 binds, but Go's offset wraps to 0 instead of 25*2^64 |
| Paging.Window | server/main.go:162 | `Offset(off).Limit(limit)` returns `min(limit, rows left)` rows, the k-th being row off+k |
| Paging.RowOnPage | server/main.go:142-162 | row q*size+r of the matching rows is row r of page q+1 |
| Paging.PagesTile | server/main.go:142-162 | reading pages 1..n in order gives the first n*size rows, each exactly once |
| Text.TrimSpace | server/main.go:828 | the result has no leading or trailing white space and is what lies between the stripped white space |
| Text.TrimSpaceIdempotent | server/main.go:894 | trimming twice equals trimming once |
| Text.ToUpperMeaning | server/main.go:783 | upper-casing leaves no lower-case letter and changes nothing else |
| Text.ReplaceCharByNothing | server/main.go:783 | replacing a one-character pattern by nothing deletes every occurrence of that character |
| Text.ReplaceAllAbsent | server/main.go:831-833 | replacing a pattern that does not occur changes nothing |
| Text.Split | client/src/components/CreateQuestionModal.jsx:44 | splitting gives at least one part, and no part contains the separator |
| Text.JoinSplit | client/src/components/CreateQuestionModal.jsx:44 | joining the parts of a split at the same separator gives the text back |
| Text.SplitJoin | client/src/components/CreateQuestionModal.jsx:90 | splitting a join of separator-free parts gives the parts back |
| Text.JoinLength | server/main.go:588 | a join is as long as its parts plus one separator between each two |
| Text.Decimal | server/main.go:926 | `%d` of a natural number is a non-empty run of digits without a leading zero |
| Text.DecimalRoundTrip | server/main.go:926 | reading the digits back gives the number |
| Text.DecimalInjective | server/main.go:926 | different numbers render differently |
| ClientForm.LoadForEdit | client/src/components/CreateQuestionModal.jsx:34-49 | type, content, difficulty and language are copied; options A-D are the stored options' entries; a multiple-choice answer is split at "," into comma-free labels (none exactly when it is empty) with no single answer; any other answer is the single answer with no multiple answer |
| ClientForm.FormOnOpen | client/src/components/CreateQuestionModal.jsx:34-53 | editing loads the question; otherwise the form is reset to its initial values |
| ClientForm.BuildPayload | client/src/components/CreateQuestionModal.jsx:74-92 | type, content and difficulty are passed on and a missing language becomes ""; options and answer are absent exactly for a programming question; otherwise options have exactly keys A-D, each missing text becoming "", and the answer is the labels joined by "," for multiple choice, or the single answer or "" |
| ClientForm.EditRoundTrip | client/src/components/CreateQuestionModal.jsx:34-92 | the payload built from the untouched edit form of a stored question is the payload of that question (it is sent only when the loaded form passes its rules: `ClientList.EditSaveUnchanged`) |
| ClientForm.LoadedFormRules | client/src/components/CreateQuestionModal.jsx:179-285 | the loaded edit form of a stored question passes the required rules exactly when the question is savable: required fields non-empty and, unless programming, single or multiple choice with non-empty options A-D and a non-empty answer |
| ClientForm.MultipleAnswerRoundTrip | client/src/components/CreateQuestionModal.jsx:44-90 | non-empty comma-free labels submitted as a multiple answer load back as the same labels in the same order |
| ClientForm.SingleAnswerRoundTrip | client/src/components/CreateQuestionModal.jsx:43-91 | a single answer submitted loads back as the same answer ("" when none was chosen) |
| ClientForm.ValidFormGivesCompletePayload | client/src/components/CreateQuestionModal.jsx:74-296 | a form that passes its rules gives a payload with every field filled: options A-D and an answer for a choice type, neither for programming |
| ClientForm.FailureText | client/src/components/CreateQuestionModal.jsx:108 | the server's error when there is one, else the request error's message, else the fallback text |
| ClientForm.Submit | client/src/components/CreateQuestionModal.jsx:71-285 | nothing is sent, no notice shown and the modal stays open exactly when the form fails its required rules; otherwise the form's payload is sent with PUT to the edited question's id when editing, and with POST otherwise, and the modal closes, with a success notice, exactly when the request succeeds |
| ClientAi.RemoveFacts | client/src/components/CreateQuestionModal.jsx:133 | unchecking drops every occurrence of the index, keeps every other index as often as it occurred, and adds nothing |
| ClientAi.RemoveAbsent | client/src/components/CreateQuestionModal.jsx:133 | removing an index that is not selected changes nothing |
| ClientAi.RemoveAppend | client/src/components/CreateQuestionModal.jsx:133 | the filter distributes over concatenation |
| ClientAi.Select | client/src/components/CreateQuestionModal.jsx:130-135 | checking appends the index; unchecking removes it; the candidates are untouched |
| ClientAi.Toggle | client/src/components/CreateQuestionModal.jsx:451 | a card click flips whether the index is selected and no other index's membership |
| ClientAi.ToggleTwice | client/src/components/CreateQuestionModal.jsx:130-135 | two clicks on an unselected card restore the selection exactly |
| ClientAi.ToggleKeepsValid | client/src/components/CreateQuestionModal.jsx:130-135 | clicks keep the selection made of distinct indices of existing candidates |
| ClientAi.OnGenerate | client/src/components/CreateQuestionModal.jsx:115-128 | success replaces the candidates and empties the selection with a success notice; failure changes nothing and shows an error |
| ClientAi.OnEnterAiTab | client/src/components/CreateQuestionModal.jsx:63-69 | entering the AI tab leaves no candidates and no selection |
| ClientAi.FirstFailure | client/src/components/CreateQuestionModal.jsx:152 | there is no failure exactly when every request succeeded |
| ClientAi.Confirm | client/src/components/CreateQuestionModal.jsx:137-163 | an empty selection only warns and posts nothing; otherwise one post per selected index, in selection order, with that candidate; the modal closes, with a success notice, exactly when every post succeeds |
| ClientAi.ValidConfirmPostsCandidates | client/src/components/CreateQuestionModal.jsx:147-151 | with a valid selection every post carries a real candidate |
| ClientList.FetchParams | client/src/pages/QuestionManagement.jsx:135-139 | the query is the current page, the page size and the three filters |
| ClientList.FilterChanged | client/src/pages/QuestionManagement.jsx:128-171 | new filters reset the page to 1 and the effect fetches that page |
| ClientList.Search | client/src/pages/QuestionManagement.jsx:158-161 | only the keyword changes, the page goes back to 1, a fetch follows |
| ClientList.TypeFilter | client/src/pages/QuestionManagement.jsx:163-166 | only the type filter changes, the page goes back to 1, a fetch follows |
| ClientList.DifficultyFilter | client/src/pages/QuestionManagement.jsx:168-171 | only the difficulty filter changes, the page goes back to 1, a fetch follows |
| ClientList.FilterChangeFetchesFirstPage | client/src/pages/QuestionManagement.jsx:158-171 | after any filter change the server binds the fetch to page 1 and offset 0 |
| ClientList.TableChange | client/src/pages/QuestionManagement.jsx:128-156 | the pagination is replaced and the filters kept; one fetch follows exactly when the page or the page size changed |
| ClientList.FetchReply | client/src/pages/QuestionManagement.jsx:140-149 | a failure changes nothing and shows an error; a success replaces the rows and writes back the issuing render's pagination with the new total, and refetches that page with the current filters exactly when that moves the page or its size |
| ClientList.FreshReplyKeepsPage | client/src/pages/QuestionManagement.jsx:140-145 | an answer for the shown page replaces only the rows and the total |
| ClientList.StaleReplyRevertsPage | client/src/pages/QuestionManagement.jsx:128-156 | a page change made while a fetch is pending is undone when that fetch succeeds, and the old page is fetched again |
| ClientList.Delete | client/src/pages/QuestionManagement.jsx:173-181 | a delete leaves the state alone; a refetch follows exactly on success |
| ClientList.BatchDelete | client/src/pages/QuestionManagement.jsx:183-197 | an empty selection only warns; otherwise the selection is deleted, and on success the selection is cleared and the page refetched, on failure nothing changes |
| ClientList.BatchDeleteTwice | client/src/pages/QuestionManagement.jsx:183-197 | after a successful batch delete a second one issues nothing |
| ClientList.SelectRows | client/src/pages/QuestionManagement.jsx:210-213 | row selection replaces the selected keys and nothing else |
| ClientList.Mode | client/src/pages/QuestionManagement.jsx:282 | the modal is in edit mode exactly when a question is being edited |
| ClientList.Edit | client/src/pages/QuestionManagement.jsx:199-202 | the question becomes the edited one and the modal opens, with no request |
| ClientList.ModalClose | client/src/pages/QuestionManagement.jsx:204-208 | the modal hides, nothing is being edited, no notice is shown, and the page is fetched again |
| ClientList.Refresh | client/src/pages/QuestionManagement.jsx:227 | the refresh button leaves the state alone, shows no notice and fetches the shown page with the current filters |
| ClientList.EditThenClose | client/src/pages/QuestionManagement.jsx:199-208 | editing opens the modal in edit mode with the question's fields loaded; closing hides (unmounts) the modal and clears the edited question, so the page is back in create mode and a modal mounted from there would start from the initial values |
| ClientList.EditSaveUnchanged | client/src/pages/QuestionManagement.jsx:199-208 | saving an edited savable question untouched puts its own payload back to its own id and closes; an unsavable one (say, single choice with an empty answer) sends nothing and stays open; closing refetches the page shown |
| ClientList.TablePageBinds | client/src/pages/QuestionManagement.jsx:135-139 | any page with one of the table's page sizes binds on the server exactly as sent |

## Left out

- The network, the database and the AI service: GORM queries, the LIKE filters, creating, updating and deleting rows, and the resty call. The list query is modelled as a window over the matching rows. The AI call's outcome, and every client request's outcome, is a parameter.
- encoding/json: each decoding that `parseAIResponse`, `parseRawQuestion`, the options decoding and `JSON.Scan` attempt is a parameter of the model that reports which shape decoded. Marshalling in `JSON.Value` is also a parameter.
- `fmt`'s `%v` of numbers, arrays and objects, and `%.0f` of floats, are a `Formatter` parameter, because floating-point formatting is not modelled.
- The regular-expression repairs of `cleanJSONContent` (quoting bare keys, dropping trailing commas) are parameters. The last repair writes back what it matched, so it is the identity.
- `buildAIPrompt` and the request body sent to the AI service are prompt text with nothing to state.
- `getLearningNote`, routing, CORS, static files and `main()` are plumbing and file I/O.
- Text.ToLower: case mapping is ASCII-only, while Go's `strings.ToLower`/`ToUpper` use Unicode's simple case mapping, which also maps some non-ASCII letters onto ASCII ones: 'İ' (U+0130) lowers to 'i', the Kelvin sign (U+212A) lowers to 'k', and 'ſ' (U+017F) and 'ı' (U+0131) upper-case to 'S' and 'I'. Texts holding such letters are classified and cleaned differently: Go classifies "MULTİPLE" as multiple_choice, the model (`Normalize.ClassifyType`) as single_choice, and the answer clean-up of Go's `normalizeQuestion` turns "ſ" into "S" where `Normalize.CleanAnswer` keeps it.
- Normalize.ClassifiersIgnoreCase: holds for the ASCII case mapping modelled; under Go's Unicode mapping it fails, e.g. "programmıng" (dotless ı) is single_choice but its upper-casing "PROGRAMMING" is programming.
- Strings are sequences of characters (runes). Go indexes bytes, but every index the core takes lands on an ASCII bracket, so the two agree.
- `Promise.all` concurrency: a batch is a sequence of outcomes in request order. ClientAi.Confirm reports the first failure in that order, where the browser reports the first one to settle.
- The order in which a pending request's reply interleaves with later events is not modelled beyond FetchReply's snapshot argument (the pagination the issuing render saw).
- Api.BindGenerate: the binding error text is modelled as its fixed prefix, without gin's validator message appended.
- ClientForm.Stored assumes the server stores a payload's fields as sent. `addQuestion`/`updateQuestion` is not part of this model.
- The AI tab's form limits the count to 1..10, while the server accepts up to 20. The model follows the server.
- client/src/pages/CreateQuestionModal.jsx and client/src/components/AIGeneratePanel.jsx are not part of this model: the list page imports the components version, and the pages version imports a panel that does not exist. The other pages, layouts and routing are presentation only.

## Findings

| source | as written | input that shows it | evidently intended | confidence | as-written member | corrected member |
|---|---|---|---|---|---|---|
| server/main.go:142 | the offset `(page-1)*pageSize` is computed in a 64-bit `int` after binding only checks `page >= 1` | `page=4611686018427387905&page_size=100`: the product is 25*2^64 and wraps to offset 0, so the first page's rows come back | a page far past the end returns no rows: offset (page-1)*pageSize, or a bound on page | not executed | Paging.OffsetWrapsForHugePage (with Paging.OffsetAsWritten) | Paging.Offset (with Paging.NextPageOffset, Paging.PagesTile) |

=== FILE: client_ai.dfy ===
/**
 The AI tab of the create/edit modal
 (client/src/components/CreateQuestionModal.jsx): the generated candidates,
 the indices the user selected among them, and the confirm step that posts
 the selected candidates. Network outcomes are parameters.
 */
module ClientAi {
  import opened Common
  import opened Text
  import opened ClientForm

  /** `aiGeneratedQuestions` and `selectedAiQuestions`. */
  datatype AiPanel<Q> = AiPanel(candidates: seq<Q>, selected: seq<nat>)

  /** Every selected index names a candidate, and none is selected twice. */
  predicate Valid<Q>(p: AiPanel<Q>) {
    && (forall k :: 0 <= k < |p.selected| ==> p.selected[k] < |p.candidates|)
    && (forall a, b :: 0 <= a < b < |p.selected| ==> p.selected[a] != p.selected[b])
  }

  /** `selectedAiQuestions.filter(idx => idx !== i)`. */
  function Remove(s: seq<nat>, i: nat): seq<nat> {
    if s == [] then []
    else if s[0] == i then Remove(s[1..], i)
    else [s[0]] + Remove(s[1..], i)
  }

  /**
   The filter drops every occurrence of `i` and keeps every other index as
   often as it occurred; it adds nothing.
   */
  lemma {:induction false} RemoveFacts(s: seq<nat>, i: nat)
    ensures i !in Remove(s, i)
    ensures forall x :: x != i ==> multiset(Remove(s, i))[x] == multiset(s)[x]
    ensures forall x :: x != i ==> (x in Remove(s, i) <==> x in s)
    ensures forall k :: 0 <= k < |Remove(s, i)| ==> Remove(s, i)[k] in s
  {
    if s != [] {
      RemoveFacts(s[1..], i);
      assert s == [s[0]] + s[1..];
    }
  }

  /** Removing an index that is not there changes nothing. */
  lemma {:induction false} RemoveAbsent(s: seq<nat>, i: nat)
    requires i !in s
    ensures Remove(s, i) == s
  {
    if s != [] {
      RemoveAbsent(s[1..], i);
    }
  }

  /** Filtering distributes over concatenation. */
  lemma {:induction false} RemoveAppend(s: seq<nat>, t: seq<nat>, i: nat)
    ensures Remove(s + t, i) == Remove(s, i) + Remove(t, i)
  {
    if s == [] {
      assert s + t == t;
    } else {
      var x, rest := s[0], s[1..];
      var a, b := Remove(rest, i), Remove(t, i);
      assert Remove(s + t, i) == if x == i then Remove(rest + t, i) else [x] + Remove(rest + t, i) by {
        SplitHead(s, t);
        RemoveCons(x, rest + t, i);
      }
      assert Remove(s, i) == if x == i then a else [x] + a by {
        SplitHead(s, t);
        RemoveCons(x, rest, i);
      }
      RemoveAppend(rest, t, i);
      assert [x] + (a + b) == ([x] + a) + b;
    }
  }

  lemma SplitHead(s: seq<nat>, t: seq<nat>)
    requires s != []
    ensures s == [s[0]] + s[1..] && s + t == [s[0]] + (s[1..] + t)
  {
  }

  /** One step of the filter. */
  lemma RemoveCons(x: nat, s: seq<nat>, i: nat)
    ensures Remove([x] + s, i) == if x == i then Remove(s, i) else [x] + Remove(s, i)
  {
    assert ([x] + s)[1..] == s;
  }

  /** `handleAiQuestionSelect(i, checked)`: checking appends, unchecking removes every occurrence. */
  function Select<Q>(p: AiPanel<Q>, i: nat, checked: bool): (r: AiPanel<Q>)
    ensures r.candidates == p.candidates
    ensures checked ==> r.selected == p.selected + [i]
    ensures !checked ==> r.selected == Remove(p.selected, i)
  {
    p.(selected := if checked then p.selected + [i] else Remove(p.selected, i))
  }

  /** A click on a candidate card: `handleAiQuestionSelect(i, !selected.includes(i))`. */
  function Toggle<Q>(p: AiPanel<Q>, i: nat): (r: AiPanel<Q>)
    ensures i in r.selected <==> i !in p.selected
    ensures forall x :: x != i ==> (x in r.selected <==> x in p.selected)
  {
    RemoveFacts(p.selected, i);
    Select(p, i, i !in p.selected)
  }

  /** Clicking an unselected candidate twice restores the selection. */
  lemma ToggleTwice<Q>(p: AiPanel<Q>, i: nat)
    requires i !in p.selected
    ensures Toggle(Toggle(p, i), i).selected == p.selected
  {
    RemoveAppend(p.selected, [i], i);
    RemoveAbsent(p.selected, i);
  }

  /** Every transition a click can cause keeps the panel valid. */
  lemma {:induction false} ToggleKeepsValid<Q>(p: AiPanel<Q>, i: nat)
    requires Valid(p) && i < |p.candidates|
    ensures Valid(Toggle(p, i))
  {
    var s := p.selected;
    if i in s {
      var r := Remove(s, i);
      assert Toggle(p, i).selected == r;
      RemoveFacts(s, i);
      forall a, b | 0 <= a < b < |r|
        ensures r[a] != r[b]
      {
        if r[a] == r[b] {
          assert multiset(r)[r[a]] >= 2 by {
            SubMultiset(r, a, b);
          }
          NoDupCount(s, r[a]);
        }
      }
    } else {
      assert Toggle(p, i).selected == s + [i];
    }
  }

  lemma SubMultiset(r: seq<nat>, a: nat, b: nat)
    requires a < b < |r|
    ensures multiset{r[a], r[b]} <= multiset(r)
  {
    assert r == r[..a] + [r[a]] + r[a + 1..b] + [r[b]] + r[b + 1..];
  }

  /** In a sequence without duplicates every element occurs at most once. */
  lemma {:induction false} NoDupCount(s: seq<nat>, x: nat)
    requires forall a, b :: 0 <= a < b < |s| ==> s[a] != s[b]
    ensures multiset(s)[x] <= 1
  {
    if s != [] {
      assert s == [s[0]] + s[1..];
      NoDupCount(s[1..], x);
      if s[0] == x {
        assert x !in s[1..];
      }
    }
  }

  /** A notice and the panel after `handleAiGenerate`. */
  datatype GenerateStep<Q> = GenerateStep(panel: AiPanel<Q>, notice: Notice)

  /**
   `handleAiGenerate`: a successful request replaces the candidates with the
   returned questions and clears the selection; a failed one leaves both.
   */
  function OnGenerate<Q>(p: AiPanel<Q>, response: Option<seq<Q>>): (r: GenerateStep<Q>)
    ensures response.Some? ==> r.panel.candidates == response.value && r.panel.selected == []
    ensures response.None? ==> r.panel == p
    ensures Valid(p) || response.Some? ==> Valid(r.panel)
    ensures r.notice.Success? <==> response.Some?
    ensures response.None? ==> r.notice.Error?
  {
    match response
    case Some(qs) => GenerateStep(AiPanel(qs, []), Success("题目生成成功"))
    case None => GenerateStep(p, Error("题目生成失败"))
  }

  /** The effect run when the AI tab becomes active: no candidates, no selection. */
  function OnEnterAiTab<Q>(p: AiPanel<Q>): (r: AiPanel<Q>)
    ensures Valid(r) && r.selected == [] && r.candidates == []
  {
    AiPanel([], [])
  }

  // ---------------------------------------------------------------------
  // Confirming the selection
  // ---------------------------------------------------------------------

  /** The requests `handleAddAiQuestions` issued and what the user sees. */
  datatype ConfirmResult<Q> = ConfirmResult(posted: seq<Option<Q>>, closes: bool, notice: Notice)

  /** `candidates[idx]`, `undefined` past the end. */
  function CandidateAt<Q>(candidates: seq<Q>, idx: nat): (r: Option<Q>)
    ensures r.Some? <==> idx < |candidates|
    ensures r.Some? ==> r.value == candidates[idx]
  {
    if idx < |candidates| then Some(candidates[idx]) else None
  }

  /** The first rejected request, in selection order. */
  function FirstFailure(outcomes: seq<Option<Failure>>): (r: Option<Failure>)
    ensures r.None? <==> forall k :: 0 <= k < |outcomes| ==> outcomes[k].None?
  {
    if outcomes == [] then None
    else if outcomes[0].Some? then outcomes[0]
    else FirstFailure(outcomes[1..])
  }

  /** Every request of the batch settled successfully (`outcomes[k]` is the k-th request; missing entries succeeded). */
  predicate AllSucceed(outcomes: seq<Option<Failure>>, n: nat) {
    forall k :: 0 <= k < n && k < |outcomes| ==> outcomes[k].None?
  }

  /**
   `handleAddAiQuestions`: with nothing selected it only warns; otherwise it
   posts the candidate of every selected index, in selection order, and the
   modal closes exactly when every post succeeds.
   */
  function Confirm<Q>(p: AiPanel<Q>, outcomes: seq<Option<Failure>>): (r: ConfirmResult<Q>)
    ensures p.selected == [] ==> r.posted == [] && !r.closes && r.notice.Warning?
    ensures |r.posted| == |p.selected|
    ensures forall k :: 0 <= k < |r.posted| ==> r.posted[k] == CandidateAt(p.candidates, p.selected[k])
    ensures p.selected != [] ==> (r.closes <==> AllSucceed(outcomes, |p.selected|))
    ensures r.closes <==> r.notice.Success?
  {
    if p.selected == [] then ConfirmResult([], false, Warning("请先选择要添加的题目"))
    else
      var n := |p.selected|;
      var posted := seq(n, k requires 0 <= k < n => CandidateAt(p.candidates, p.selected[k]));
      var relevant := if |outcomes| <= n then outcomes else outcomes[..n];
      match FirstFailure(relevant)
      case None => ConfirmResult(posted, true, Success("成功添加 " + Decimal(n) + " 道题目"))
      case Some(f) => ConfirmResult(posted, false, Error("添加题目失败: " + FailureText(f, "添加失败")))
  }

  /** On a valid panel every posted body is a real candidate. */
  lemma ValidConfirmPostsCandidates<Q>(p: AiPanel<Q>, outcomes: seq<Option<Failure>>)
    requires Valid(p)
    ensures forall k :: 0 <= k < |Confirm(p, outcomes).posted| ==> Confirm(p, outcomes).posted[k].Some?
  {
  }
}

=== FILE: client_form.dfy ===
/**
 The manual question form of the create/edit modal
 (client/src/components/CreateQuestionModal.jsx): loading a stored question
 into the form fields for editing, building the request payload from the
 submitted fields, and the submit outcome. Absent form fields are `None`
 (JavaScript's `undefined`).
 */
module ClientForm {
  import opened Common
  import opened Text

  /** A question as the list endpoint returns it. */
  datatype StoredQuestion = StoredQuestion(
    id: nat,
    typ: string,
    content: string,
    difficulty: string,
    language: string,
    options: Option<map<string, string>>,   // `null` for a question stored without options
    answer: string)

  /** The form's field values. */
  datatype FormValues = FormValues(
    typ: Option<string>,
    content: Option<string>,
    difficulty: Option<string>,
    language: Option<string>,
    optionA: Option<string>,
    optionB: Option<string>,
    optionC: Option<string>,
    optionD: Option<string>,
    answerSingle: Option<string>,
    answerMultiple: Option<seq<string>>)

  /**
   The JSON body sent to the server. `None` is a key that is not sent: an
   undefined `type`, `content` or `difficulty`, and the `options` and
   `answer` keys of a programming question.
   */
  datatype Payload = Payload(
    typ: Option<string>,
    content: Option<string>,
    difficulty: Option<string>,
    language: string,
    options: Option<map<string, string>>,
    answer: Option<string>)

  const ProgrammingType: string := "programming"
  const MultipleType: string := "multiple_choice"

  /** The form's `initialValues`, which `resetFields` restores. */
  const InitialValues: FormValues :=
    FormValues(Some("single_choice"), None, Some("medium"), Some("Go"), None, None, None, None, None, Some([]))

  /** JavaScript's `x || ''` on an optional string. */
  function OrEmpty(x: Option<string>): (r: string)
    ensures x.Some? ==> r == x.value
    ensures x.None? ==> r == ""
  {
    x.GetOr("")
  }

  /** `options.K` on `question.options || {}`. */
  function OptionText(options: Option<map<string, string>>, key: string): (r: Option<string>)
    ensures r.Some? <==> options.Some? && key in options.value
    ensures r.Some? ==> r.value == options.value[key]
  {
    match options
    case Some(m) => if key in m then Some(m[key]) else None
    case None => None
  }

  /**
   The edit `useEffect`: a multiple-choice answer is split at commas into the
   checkbox labels (none for an empty answer), any other answer goes to the
   radio group; options A-D fill the four option fields.
   */
  function LoadForEdit(q: StoredQuestion): (v: FormValues)
    ensures v.typ == Some(q.typ) && v.content == Some(q.content)
    ensures v.difficulty == Some(q.difficulty) && v.language == Some(q.language)
    ensures v.optionA == OptionText(q.options, "A") && v.optionB == OptionText(q.options, "B")
    ensures v.optionC == OptionText(q.options, "C") && v.optionD == OptionText(q.options, "D")
    ensures q.typ == MultipleType ==> v.answerSingle.None? && v.answerMultiple.Some?
    ensures q.typ == MultipleType ==> forall k :: 0 <= k < |v.answerMultiple.value| ==> ',' !in v.answerMultiple.value[k]
    ensures q.typ == MultipleType ==> (v.answerMultiple.value == [] <==> q.answer == "")
    ensures q.typ != MultipleType ==> v.answerSingle == Some(q.answer) && v.answerMultiple == Some([])
  {
    var isMultiple := q.typ == MultipleType;
    FormValues(
      Some(q.typ), Some(q.content), Some(q.difficulty), Some(q.language),
      OptionText(q.options, "A"), OptionText(q.options, "B"),
      OptionText(q.options, "C"), OptionText(q.options, "D"),
      if !isMultiple then Some(q.answer) else None,
      if isMultiple && q.answer != "" then Some(Split(q.answer, ',')) else Some([]))
  }

  /** The form when the modal opens: the question being edited, or the initial values. */
  function FormOnOpen(editing: Option<StoredQuestion>): (v: FormValues)
    ensures editing.Some? ==> v == LoadForEdit(editing.value)
    ensures editing.None? ==> v == InitialValues
  {
    match editing
    case Some(q) => LoadForEdit(q)
    case None => InitialValues
  }

  /**
   The payload `handleSubmit` builds: a programming question carries no
   options and no answer; any other type carries exactly the options A-D
   (a missing field becomes "") and an answer, which for multiple choice is
   the checked labels joined by commas in checking order.
   */
  function BuildPayload(v: FormValues): (p: Payload)
    ensures p.typ == v.typ && p.content == v.content && p.difficulty == v.difficulty
    ensures p.language == OrEmpty(v.language)
    ensures p.options.None? <==> v.typ == Some(ProgrammingType)
    ensures p.answer.None? <==> v.typ == Some(ProgrammingType)
    ensures p.options.Some? ==> p.options.value.Keys == {"A", "B", "C", "D"}
    ensures p.options.Some? ==> p.options.value["A"] == OrEmpty(v.optionA) && p.options.value["B"] == OrEmpty(v.optionB)
    ensures p.options.Some? ==> p.options.value["C"] == OrEmpty(v.optionC) && p.options.value["D"] == OrEmpty(v.optionD)
    ensures p.answer.Some? && v.typ == Some(MultipleType) ==> p.answer.value == Join(v.answerMultiple.GetOr([]), ",")
    ensures p.answer.Some? && v.typ != Some(MultipleType) ==> p.answer.value == OrEmpty(v.answerSingle)
  {
    var base := Payload(v.typ, v.content, v.difficulty, OrEmpty(v.language), None, None);
    if v.typ != Some(ProgrammingType) then
      var options := map["A" := OrEmpty(v.optionA), "B" := OrEmpty(v.optionB),
                          "C" := OrEmpty(v.optionC), "D" := OrEmpty(v.optionD)];
      var answer := if v.typ == Some(MultipleType) then Join(v.answerMultiple.GetOr([]), ",")
                    else OrEmpty(v.answerSingle);
      base.(options := Some(options), answer := Some(answer))
    else
      base
  }

  /**
   What a stored question is as a payload, defined from the stored record
   alone: its options A-D (missing ones empty) and its answer, both omitted
   for a programming question.
   */
  function PayloadOf(q: StoredQuestion): Payload {
    var choice := q.typ != ProgrammingType;
    Payload(
      Some(q.typ), Some(q.content), Some(q.difficulty), q.language,
      if choice then
        Some(map["A" := OrEmpty(OptionText(q.options, "A")), "B" := OrEmpty(OptionText(q.options, "B")),
                 "C" := OrEmpty(OptionText(q.options, "C")), "D" := OrEmpty(OptionText(q.options, "D"))])
      else None,
      if choice then Some(q.answer) else None)
  }

  /** Opening a stored question for editing and saving it unchanged sends the question back as it is. */
  lemma EditRoundTrip(q: StoredQuestion)
    ensures BuildPayload(LoadForEdit(q)) == PayloadOf(q)
  {
    var v := LoadForEdit(q);
    if q.typ == MultipleType {
      if q.answer != "" {
        JoinSplit(q.answer, ',');
      }
      assert Join(v.answerMultiple.GetOr([]), ",") == q.answer;
    }
  }

  /** The record the list returns after the server stored a payload of a known type under `id`. */
  function Stored(id: nat, p: Payload): StoredQuestion
    requires p.typ.Some? && p.content.Some? && p.difficulty.Some?
  {
    StoredQuestion(id, p.typ.value, p.content.value, p.difficulty.value, p.language, p.options, p.answer.GetOr(""))
  }

  /**
   Saving a multiple-choice form and opening the stored question again gives
   back the checked labels in their order, provided each label is non-empty
   and free of commas (the checkbox values A-D are).
   */
  lemma MultipleAnswerRoundTrip(v: FormValues, id: nat)
    requires v.typ == Some(MultipleType) && v.content.Some? && v.difficulty.Some?
    requires v.answerMultiple.Some? && |v.answerMultiple.value| >= 1
    requires forall k :: 0 <= k < |v.answerMultiple.value| ==> v.answerMultiple.value[k] != "" && ',' !in v.answerMultiple.value[k]
    ensures LoadForEdit(Stored(id, BuildPayload(v))).answerMultiple == v.answerMultiple
  {
    var labels := v.answerMultiple.value;
    SplitJoin(labels, ',');
    JoinLength(labels, ',');
    assert |Join(labels, ",")| >= |labels[0]| > 0 by {
      SumLengthsAtLeastFirst(labels);
    }
  }

  lemma SumLengthsAtLeastFirst(parts: seq<string>)
    requires |parts| >= 1
    ensures SumLengths(parts) >= |parts[0]|
  {
  }

  /** Saving a single-choice form and opening it again gives back the chosen label ("" for none). */
  lemma SingleAnswerRoundTrip(v: FormValues, id: nat)
    requires v.typ == Some("single_choice") && v.content.Some? && v.difficulty.Some?
    ensures LoadForEdit(Stored(id, BuildPayload(v))).answerSingle == Some(OrEmpty(v.answerSingle))
  {
  }

  // ---------------------------------------------------------------------
  // Validation rules and submission
  // ---------------------------------------------------------------------

  predicate Filled(x: Option<string>) { x.Some? && x.value != "" }

  /**
   The form's `required` rules, which gate `onFinish`: type, content,
   difficulty and language always; for any type but programming also the four
   options and the answer field the type shows (the radio group for single
   choice, the checkbox group otherwise).
   */
  predicate RulesHold(v: FormValues) {
    && Filled(v.typ) && Filled(v.content) && Filled(v.difficulty) && Filled(v.language)
    && (v.typ.value != ProgrammingType ==>
          && Filled(v.optionA) && Filled(v.optionB) && Filled(v.optionC) && Filled(v.optionD)
          && (v.typ.value == "single_choice" ==> Filled(v.answerSingle))
          && (v.typ.value != "single_choice" ==> v.answerMultiple.Some? && |v.answerMultiple.value| > 0))
  }

  /**
   A form that passed its rules, with one of the three types the type select
   offers, produces a payload with every sent field non-empty.
   */
  lemma ValidFormGivesCompletePayload(v: FormValues)
    requires RulesHold(v) && v.typ.value in {"single_choice", MultipleType, ProgrammingType}
    requires v.typ.value == MultipleType ==> forall k :: 0 <= k < |v.answerMultiple.value| ==> v.answerMultiple.value[k] != ""
    ensures var p := BuildPayload(v);
            && p.language != ""
            && (p.options.Some? ==> forall k :: k in p.options.value ==> p.options.value[k] != "")
            && (p.answer.Some? ==> p.answer.value != "")
  {
    var p := BuildPayload(v);
    if p.options.Some? {
      var m := p.options.value;
      forall k | k in m
        ensures m[k] != ""
      {
        assert k in {"A", "B", "C", "D"};
      }
    }
    if v.typ.value == MultipleType {
      var labels := v.answerMultiple.value;
      JoinLength(labels, ',');
      SumLengthsAtLeastFirst(labels);
    }
  }

  /**
   A stored question whose loaded form passes the rules: every always-required
   field is non-empty and, unless it is a programming question, it is single
   or multiple choice (the only types whose answer field the form shows a
   value for), has non-empty options A-D and a non-empty answer.
   */
  predicate Savable(q: StoredQuestion) {
    && q.typ != "" && q.content != "" && q.difficulty != "" && q.language != ""
    && (q.typ != ProgrammingType ==>
          && (q.typ == "single_choice" || q.typ == MultipleType)
          && q.options.Some?
          && (forall key :: key in ["A", "B", "C", "D"] ==> key in q.options.value && q.options.value[key] != "")
          && q.answer != "")
  }

  /** The edit form of a stored question passes its rules exactly when the question is savable. */
  lemma LoadedFormRules(q: StoredQuestion)
    ensures RulesHold(LoadForEdit(q)) <==> Savable(q)
  {
  }

  /** A notice shown with antd's `message`. */
  datatype Notice = Success(text: string) | Error(text: string) | Warning(text: string)

  /** A rejected request: `error.response?.data?.error` and `error.message`. */
  datatype Failure = Failure(serverError: Option<string>, errorMessage: Option<string>)

  /** JavaScript's `a || b || fallback` over the two messages of a failure. */
  function FailureText(f: Failure, fallback: string): (r: string)
    ensures Filled(f.serverError) ==> r == f.serverError.value
    ensures !Filled(f.serverError) && Filled(f.errorMessage) ==> r == f.errorMessage.value
    ensures !Filled(f.serverError) && !Filled(f.errorMessage) ==> r == fallback
  {
    if Filled(f.serverError) then f.serverError.value
    else if Filled(f.errorMessage) then f.errorMessage.value
    else fallback
  }

  datatype SubmitRequest = Put(id: nat, body: Payload) | Post(body: Payload)

  /** No request and no notice when the form's rules stop `onFinish`. */
  datatype SubmitResult = SubmitResult(request: Option<SubmitRequest>, closes: bool, notice: Option<Notice>)

  /**
   Pressing the submit button: the form's rules gate `handleSubmit`, so a form
   that fails them sends nothing and stays open. Otherwise `handleSubmit`
   runs: edit mode (a question is being edited) sends a PUT to that
   question's id, otherwise a POST; the modal closes exactly when the request
   succeeds (`outcome` is `None`).
   */
  function Submit(editing: Option<StoredQuestion>, v: FormValues, outcome: Option<Failure>): (r: SubmitResult)
    ensures r.request.None? <==> !RulesHold(v)
    ensures r.request.None? ==> !r.closes && r.notice.None?
    ensures r.request.Some? ==> r.request.value.body == BuildPayload(v) && r.notice.Some?
    ensures r.request.Some? ==> (r.request.value.Put? <==> editing.Some?)
    ensures r.request.Some? && r.request.value.Put? ==> r.request.value.id == editing.value.id
    ensures r.closes <==> RulesHold(v) && outcome.None?
    ensures r.closes <==> r.notice.Some? && r.notice.value.Success?
  {
    if !RulesHold(v) then SubmitResult(None, false, None)
    else
      var payload := BuildPayload(v);
      var request := if editing.Some? then Put(editing.value.id, payload) else Post(payload);
      match outcome
      case None => SubmitResult(Some(request), true, Some(Success(if editing.Some? then "更新成功" else "创建成功")))
      case Some(f) =>
        SubmitResult(Some(request), false,
                     Some(Error((if editing.Some? then "更新失败" else "创建失败") + ": " + FailureText(f, "操作失败"))))
  }
}

=== FILE: client_list.dfy ===
/**
 The question-list page (client/src/pages/QuestionManagement.jsx) as a
 state machine. Each handler returns the next state, the requests it issues
 (including the fetch that the page's effect on `pagination.current`,
 `pagination.pageSize` and `filters` triggers after the render) and the
 notice it shows. Server replies are parameters of the handler that
 receives them.
 */
module ClientList {
  import opened Common
  import opened ClientForm
  import Paging

  /** The table's pagination state. */
  datatype PageState = PageState(current: int, pageSize: int, total: int)

  /** The three filters; a cleared select filter is `undefined` (`None`). */
  datatype Filters = Filters(typ: Option<string>, difficulty: Option<string>, keyword: Option<string>)

  datatype ListState = ListState(
    questions: seq<StoredQuestion>,
    pagination: PageState,
    filters: Filters,
    selected: seq<nat>,                  // `selectedRowKeys`
    modalVisible: bool,
    editing: Option<StoredQuestion>)

  /** The state of the first render. */
  const Initial: ListState :=
    ListState([], PageState(1, 10, 0), Filters(Some(""), Some(""), Some("")), [], false, None)

  /** The query parameters of `GET /api/questions`. */
  datatype Params = Params(page: int, pageSize: int, typ: Option<string>, difficulty: Option<string>, keyword: Option<string>)

  /**
   A request. A fetch carries the pagination its closure saw, which is what
   its success handler writes back.
   */
  datatype Request =
    | Fetch(params: Params, snapshot: PageState)
    | DeleteOne(id: nat)
    | DeleteMany(ids: seq<nat>)

  datatype Step = Step(state: ListState, requests: seq<Request>, notice: Option<Notice>)

  /** `fetchQuestions`' parameters: the page, the page size and the three filters, nothing else. */
  function FetchParams(s: ListState): (p: Params)
    ensures p.page == s.pagination.current && p.pageSize == s.pagination.pageSize
    ensures p.typ == s.filters.typ && p.difficulty == s.filters.difficulty && p.keyword == s.filters.keyword
  {
    Params(s.pagination.current, s.pagination.pageSize, s.filters.typ, s.filters.difficulty, s.filters.keyword)
  }

  /** The fetch a call of `fetchQuestions` made in state `s` issues. */
  function FetchFrom(s: ListState): Request {
    Fetch(FetchParams(s), s.pagination)
  }

  // ---------------------------------------------------------------------
  // Filters and pagination
  // ---------------------------------------------------------------------

  /** A filter handler: the new filters with page 1; the new filters object always triggers a fetch. */
  function FilterChanged(s: ListState, filters: Filters): (r: Step)
    ensures r.state == s.(filters := filters, pagination := s.pagination.(current := 1))
    ensures r.requests == [FetchFrom(r.state)] && r.notice.None?
  {
    var next := s.(filters := filters, pagination := s.pagination.(current := 1));
    Step(next, [FetchFrom(next)], None)
  }

  /** `handleSearch`: only the keyword changes, and the list goes back to page 1. */
  function Search(s: ListState, value: string): (r: Step)
    ensures r.state.filters.keyword == Some(value)
    ensures r.state.filters.typ == s.filters.typ && r.state.filters.difficulty == s.filters.difficulty
    ensures r.state.pagination == s.pagination.(current := 1)
    ensures r.state.questions == s.questions && r.state.selected == s.selected
    ensures r.requests == [Fetch(FetchParams(r.state), r.state.pagination)]
  {
    FilterChanged(s, s.filters.(keyword := Some(value)))
  }

  /** `handleTypeFilter`: only the type filter changes (`None` when cleared), back to page 1. */
  function TypeFilter(s: ListState, value: Option<string>): (r: Step)
    ensures r.state.filters.typ == value
    ensures r.state.filters.difficulty == s.filters.difficulty && r.state.filters.keyword == s.filters.keyword
    ensures r.state.pagination == s.pagination.(current := 1)
    ensures r.state.questions == s.questions && r.state.selected == s.selected
    ensures r.requests == [Fetch(FetchParams(r.state), r.state.pagination)]
  {
    FilterChanged(s, s.filters.(typ := value))
  }

  /** `handleDifficultyFilter`: only the difficulty filter changes, back to page 1. */
  function DifficultyFilter(s: ListState, value: Option<string>): (r: Step)
    ensures r.state.filters.difficulty == value
    ensures r.state.filters.typ == s.filters.typ && r.state.filters.keyword == s.filters.keyword
    ensures r.state.pagination == s.pagination.(current := 1)
    ensures r.state.questions == s.questions && r.state.selected == s.selected
    ensures r.requests == [Fetch(FetchParams(r.state), r.state.pagination)]
  {
    FilterChanged(s, s.filters.(difficulty := value))
  }

  /**
   After any filter change the fetch asks for page 1, and the server binds
   it to offset 0, whatever page was shown before.
   */
  lemma FilterChangeFetchesFirstPage(s: ListState, filters: Filters)
    requires 1 <= s.pagination.pageSize <= 100
    ensures var f := FilterChanged(s, filters).requests[0];
            && f.params.page == 1
            && var p := Paging.BindPagination(Paging.Number(f.params.page), Paging.Number(f.params.pageSize));
               p == Paging.Pagination(1, s.pagination.pageSize) && Paging.Offset(p) == 0
  {
    Paging.BindEchoesValid(Paging.Pagination(1, s.pagination.pageSize));
  }

  /**
   `handleTableChange`: the pagination is replaced as a whole; a fetch
   follows only when the page or the page size differs, since the effect
   compares those two values.
   */
  function TableChange(s: ListState, p: PageState): (r: Step)
    ensures r.state == s.(pagination := p)
    ensures r.state.filters == s.filters
    ensures |r.requests| <= 1
    ensures r.requests != [] <==> p.current != s.pagination.current || p.pageSize != s.pagination.pageSize
    ensures r.requests != [] ==> r.requests == [FetchFrom(r.state)]
  {
    var next := s.(pagination := p);
    var fetch := if p.current != s.pagination.current || p.pageSize != s.pagination.pageSize then [FetchFrom(next)] else [];
    Step(next, fetch, None)
  }

  /**
   The reply to a fetch issued with pagination `snapshot`: on success the
   rows are replaced and the pagination becomes the snapshot with the new
   total (which refetches when that moves the page or size away from the
   current ones); on failure nothing changes.
   */
  function FetchReply(s: ListState, snapshot: PageState, reply: Option<(seq<StoredQuestion>, int)>): (r: Step)
    ensures reply.None? ==> r.state == s && r.requests == [] && r.notice.Some? && r.notice.value.Error?
    ensures reply.Some? ==> r.state == s.(questions := reply.value.0, pagination := snapshot.(total := reply.value.1))
    ensures reply.Some? ==> r.notice.None?
    ensures reply.Some? ==> (r.requests == [] <==> snapshot.current == s.pagination.current && snapshot.pageSize == s.pagination.pageSize)
    ensures reply.Some? && r.requests != [] ==> r.requests == [FetchFrom(r.state)]
  {
    match reply
    case None => Step(s, [], Some(Error("获取题目列表失败")))
    case Some((rows, total)) =>
      var next := s.(questions := rows, pagination := snapshot.(total := total));
      var moved := snapshot.current != s.pagination.current || snapshot.pageSize != s.pagination.pageSize;
      Step(next, if moved then [FetchFrom(next)] else [], None)
  }

  /** A fetch answered while the same page is shown only replaces the rows and the total. */
  lemma FreshReplyKeepsPage(s: ListState, rows: seq<StoredQuestion>, total: int)
    ensures var r := FetchReply(s, s.pagination, Some((rows, total)));
            && r.state.pagination.current == s.pagination.current
            && r.state.pagination.pageSize == s.pagination.pageSize
            && r.state.pagination.total == total
            && r.state.questions == rows
            && r.state.filters == s.filters && r.state.selected == s.selected
            && r.requests == []
  {
  }

  /**
   A page change made while a fetch is pending is undone when that fetch
   succeeds: the success handler writes back the pagination its closure saw,
   and the effect then fetches that old page again.
   */
  lemma StaleReplyRevertsPage(s: ListState, newPage: PageState, rows: seq<StoredQuestion>, total: int)
    requires newPage.current != s.pagination.current
    ensures var moved := TableChange(s, newPage);
            var r := FetchReply(moved.state, s.pagination, Some((rows, total)));
            && |moved.requests| == 1
            && r.state.pagination.current == s.pagination.current
            && r.requests == [Fetch(FetchParams(s), s.pagination.(total := total))]
  {
  }

  // ---------------------------------------------------------------------
  // Deleting
  // ---------------------------------------------------------------------

  /** `handleDelete`: a successful delete is followed by a fetch of the same page. */
  function Delete(s: ListState, id: nat, ok: bool): (r: Step)
    ensures r.state == s
    ensures ok ==> r.requests == [DeleteOne(id), FetchFrom(s)] && r.notice == Some(Success("删除成功"))
    ensures !ok ==> r.requests == [DeleteOne(id)] && r.notice == Some(Error("删除失败"))
  {
    if ok then Step(s, [DeleteOne(id), FetchFrom(s)], Some(Success("删除成功")))
    else Step(s, [DeleteOne(id)], Some(Error("删除失败")))
  }

  /**
   `handleBatchDelete`: with nothing selected it only warns; otherwise it
   deletes the selected keys, and on success clears the selection and
   refetches; on failure the selection stays.
   */
  function BatchDelete(s: ListState, ok: bool): (r: Step)
    ensures s.selected == [] ==> r.state == s && r.requests == [] && r.notice.Some? && r.notice.value.Warning?
    ensures s.selected != [] ==> |r.requests| >= 1 && r.requests[0] == DeleteMany(s.selected)
    ensures s.selected != [] && ok ==> r.state == s.(selected := []) && r.requests == [DeleteMany(s.selected), FetchFrom(s)]
    ensures s.selected != [] && !ok ==> r.state == s && r.requests == [DeleteMany(s.selected)]
    ensures r.state.questions == s.questions && r.state.pagination == s.pagination && r.state.filters == s.filters
  {
    if s.selected == [] then Step(s, [], Some(Warning("请先选择要删除的题目")))
    else if ok then Step(s.(selected := []), [DeleteMany(s.selected), FetchFrom(s)], Some(Success("批量删除成功")))
    else Step(s, [DeleteMany(s.selected)], Some(Error("批量删除失败")))
  }

  /** Row selection: the table hands over the new keys. */
  function SelectRows(s: ListState, keys: seq<nat>): (r: ListState)
    ensures r.selected == keys
    ensures r == s.(selected := keys)
  {
    s.(selected := keys)
  }

  /** After a successful batch delete a second one only warns. */
  lemma BatchDeleteTwice(s: ListState)
    requires s.selected != []
    ensures var first := BatchDelete(s, true);
            var second := BatchDelete(first.state, true);
            second.requests == [] && second.state == first.state
  {
  }

  // ---------------------------------------------------------------------
  // The modal
  // ---------------------------------------------------------------------

  datatype ModalMode = CreateMode | EditMode

  /** The `mode` prop: edit exactly when a question is being edited. */
  function Mode(s: ListState): (m: ModalMode)
    ensures m == EditMode <==> s.editing.Some?
  {
    if s.editing.Some? then EditMode else CreateMode
  }

  /** `handleEdit`: the question becomes the one being edited and the modal opens. */
  function Edit(s: ListState, q: StoredQuestion): (r: Step)
    ensures r.state == s.(editing := Some(q), modalVisible := true)
    ensures r.requests == []
  {
    Step(s.(editing := Some(q), modalVisible := true), [], None)
  }

  /** `handleModalClose`: the modal hides, nothing is being edited, and the list is fetched again. */
  function ModalClose(s: ListState): (r: Step)
    ensures !r.state.modalVisible && r.state.editing.None?
    ensures r.state == s.(modalVisible := false, editing := None)
    ensures r.requests == [FetchFrom(s)] && r.notice.None?
  {
    Step(s.(modalVisible := false, editing := None), [], None).(requests := [FetchFrom(s)])
  }

  /** The refresh button, whose `onClick` is `fetchQuestions` itself. */
  function Refresh(s: ListState): (r: Step)
    ensures r.state == s && r.requests == [FetchFrom(s)] && r.notice.None?
  {
    Step(s, [FetchFrom(s)], None)
  }

  /**
   Opening a question for editing shows the modal in edit mode with that
   question's fields. Closing hides the modal, which unmounts it, and clears
   the edited question: the page is back in create mode, and a modal mounted
   from that state would start from the initial values.
   */
  lemma EditThenClose(s: ListState, q: StoredQuestion)
    ensures var shown := Edit(s, q).state;
            && Mode(shown) == EditMode
            && FormOnOpen(shown.editing) == LoadForEdit(q)
            && !ModalClose(shown).state.modalVisible
            && Mode(ModalClose(shown).state) == CreateMode
            && FormOnOpen(ModalClose(shown).state.editing) == InitialValues
  {
  }

  /**
   Saving an edited question unchanged and closing the modal: a savable
   question is sent back to its own id and the list is refetched as shown; any
   other stored question (say, a single-choice one with an empty answer) is
   stopped by the form's rules and sends nothing.
   */
  lemma EditSaveUnchanged(s: ListState, q: StoredQuestion)
    ensures var shown := Edit(s, q).state;
            var submit := Submit(shown.editing, FormOnOpen(shown.editing), None);
            && (Savable(q) ==> submit.request == Some(Put(q.id, PayloadOf(q))) && submit.closes)
            && (!Savable(q) ==> submit.request.None? && !submit.closes)
            && ModalClose(shown).requests == [FetchFrom(s)]
  {
    EditRoundTrip(q);
    LoadedFormRules(q);
  }

  /** The page sizes the table offers (antd's 10, 20, 50, 100) bind on the server as sent. */
  lemma TablePageBinds(s: ListState)
    requires 1 <= s.pagination.current <= Paging.Int64Max
    requires s.pagination.pageSize in {10, 20, 50, 100}
    ensures var f := FetchParams(s);
            Paging.BindPagination(Paging.Number(f.page), Paging.Number(f.pageSize)) == Paging.Pagination(f.page, f.pageSize)
  {
    Paging.BindEchoesValid(Paging.Pagination(s.pagination.current, s.pagination.pageSize));
  }
}

=== FILE: common.dfy ===
/**
 Small shared vocabulary: nullable values, error-carrying results and bytes.
 */
module Common {

  /** A value that may be absent: Go's nil, JavaScript's undefined/null. */
  datatype Option<+T> = None | Some(value: T) {

    /** The JavaScript idiom `x || d` for a string-valued x: undefined/null fall back to `d`. */
    function GetOr(default: T): T {
      match this
      case Some(v) => v
      case None => default
    }
  }

  /** A Go `(value, error)` pair where exactly one side is meaningful. */
  datatype Result<+T> = Ok(value: T) | Err(message: string)

  /** One octet of a Go `[]byte` (and of a Go `string`, which is a byte string). */
  type byte = b: int | 0 <= b < 256
}

=== FILE: models.dfy ===
/**
 The persisted question's vocabulary (server/models/question.go): the three
 question types, the three difficulties, and the `JSON` options column with
 its database `Value`/`Scan` conversions. The encoding/json calls inside
 `Value` and `Scan` are passed in as functions.
 */
module Models {
  import opened Common

  /** The canonical question types. */
  datatype QuestionType = SingleChoice | MultipleChoice | Programming {
    /** The string stored in the `type` column. */
    function Name(): string {
      match this
      case SingleChoice => "single_choice"
      case MultipleChoice => "multiple_choice"
      case Programming => "programming"
    }
  }

  /** The canonical difficulties. */
  datatype Difficulty = Easy | Medium | Hard {
    /** The string stored in the `difficulty` column. */
    function Name(): string {
      match this
      case Easy => "easy"
      case Medium => "medium"
      case Hard => "hard"
    }
  }

  /** `s` is the stored name of some question type. */
  predicate IsTypeName(s: string) {
    exists t: QuestionType :: t.Name() == s
  }

  /** `s` is the stored name of some difficulty. */
  predicate IsDifficultyName(s: string) {
    exists d: Difficulty :: d.Name() == s
  }

  /** `s` names one of the two choice types, the ones that carry options and an answer label. */
  predicate IsChoiceName(s: string) {
    s == SingleChoice.Name() || s == MultipleChoice.Name()
  }

  /** Reads a stored type name back; anything but the three names is not a type. */
  function ParseQuestionType(s: string): (r: Option<QuestionType>)
    ensures r.Some? ==> r.value.Name() == s
    ensures r.None? ==> !IsTypeName(s)
  {
    if s == "single_choice" then Some(SingleChoice)
    else if s == "multiple_choice" then Some(MultipleChoice)
    else if s == "programming" then Some(Programming)
    else None
  }

  /** Reads a stored difficulty name back; anything but the three names is not a difficulty. */
  function ParseDifficulty(s: string): (r: Option<Difficulty>)
    ensures r.Some? ==> r.value.Name() == s
    ensures r.None? ==> !IsDifficultyName(s)
  {
    if s == "easy" then Some(Easy)
    else if s == "medium" then Some(Medium)
    else if s == "hard" then Some(Hard)
    else None
  }

  /** There are exactly three type names, and each names exactly one type. */
  lemma QuestionTypeNames(t: QuestionType, s: string)
    ensures IsTypeName(s) <==> s in {"single_choice", "multiple_choice", "programming"}
    ensures ParseQuestionType(t.Name()) == Some(t)
  {
    if s in {"single_choice", "multiple_choice", "programming"} {
      assert ParseQuestionType(s).Some?;
    }
  }

  /** There are exactly three difficulty names, and each names exactly one difficulty. */
  lemma DifficultyNames(d: Difficulty, s: string)
    ensures IsDifficultyName(s) <==> s in {"easy", "medium", "hard"}
    ensures ParseDifficulty(d.Name()) == Some(d)
  {
    if s in {"easy", "medium", "hard"} {
      assert ParseDifficulty(s).Some?;
    }
  }

  // ---------------------------------------------------------------------
  // The JSON options column
  // ---------------------------------------------------------------------

  /** A decoded JSON value, as encoding/json yields it into an `interface{}`. */
  datatype JsonValue =
    | JNull
    | JBool(b: bool)
    | JNumber(literal: string)
    | JString(s: string)
    | JArray(items: seq<JsonValue>)
    | JObject(fields: map<string, JsonValue>)

  /** The `JSON` map type: `None` is Go's nil map, distinct from an empty one. */
  type Json = Option<map<string, JsonValue>>

  /** What `database/sql` hands to `Scan`: NULL, bytes, text, or another driver value (number, bool, time). */
  datatype DbValue = DbNull | DbBytes(bytes: seq<byte>) | DbText(text: seq<byte>) | DbOther

  /** The receiver after a `Scan` call, and the error it returned. */
  datatype ScanOutcome = ScanOutcome(json: Json, error: Option<string>)

  /** The driver value `Value` returns, and its error. */
  datatype ValueOutcome = ValueOutcome(value: DbValue, error: Option<string>)

  /** The message `Scan` returns for an unsupported driver value. */
  const NonStringScanError: string := "cannot scan non-string value into JSON"

  /**
   `JSON.Value`: a nil map is stored as SQL NULL with no error; anything else is
   what `marshal` (json.Marshal) produces.
   */
  function Value(j: Json, marshal: map<string, JsonValue> -> Result<seq<byte>>): (r: ValueOutcome)
    ensures j.None? ==> r == ValueOutcome(DbNull, None)
    ensures j.Some? ==> r.value.DbBytes?
    ensures j.Some? ==> (r.error.None? <==> marshal(j.value).Ok?)
  {
    match j
    case None => ValueOutcome(DbNull, None)
    case Some(m) =>
      match marshal(m)
      case Ok(bytes) => ValueOutcome(DbBytes(bytes), None)
      case Err(e) => ValueOutcome(DbBytes([]), Some(e))
  }

  /**
   `JSON.Scan` into a receiver currently holding `current`. NULL yields nil;
   empty bytes or text yield an empty, non-nil map; other bytes are handed to
   `unmarshal` (json.Unmarshal into the receiver); any other driver value is
   an error and leaves the receiver as it was.
   */
  function Scan(current: Json, v: DbValue, unmarshal: (Json, seq<byte>) -> ScanOutcome): (r: ScanOutcome)
    ensures v.DbNull? ==> r == ScanOutcome(None, None)
    ensures v.DbOther? ==> r == ScanOutcome(current, Some(NonStringScanError))
    ensures (v.DbBytes? && v.bytes == []) || (v.DbText? && v.text == []) ==> r == ScanOutcome(Some(map[]), None)
    ensures v.DbBytes? && v.bytes != [] ==> r == unmarshal(current, v.bytes)
    ensures v.DbText? && v.text != [] ==> r == unmarshal(current, v.text)
  {
    match v
    case DbNull => ScanOutcome(None, None)
    case DbOther => ScanOutcome(current, Some(NonStringScanError))
    case DbBytes(bytes) => ScanBytes(current, bytes, unmarshal)
    case DbText(text) => ScanBytes(current, text, unmarshal)
  }

  /** The byte-level tail of `Scan`, shared by `[]byte` and `string` values. */
  function ScanBytes(current: Json, bytes: seq<byte>, unmarshal: (Json, seq<byte>) -> ScanOutcome): ScanOutcome {
    if |bytes| == 0 then ScanOutcome(Some(map[]), None) else unmarshal(current, bytes)
  }

  /**
   Storing and reading back a column value gives it back, provided that
   json.Unmarshal inverts json.Marshal on this map and the encoding is not
   empty (json.Marshal of a map is at least `{}`). GORM scans into a fresh
   nil receiver.
   */
  lemma ValueScanRoundTrip(j: Json, marshal: map<string, JsonValue> -> Result<seq<byte>>,
                           unmarshal: (Json, seq<byte>) -> ScanOutcome)
    requires j.Some? ==> marshal(j.value).Ok? && |marshal(j.value).value| > 0
    requires j.Some? ==> unmarshal(None, marshal(j.value).value) == ScanOutcome(j, None)
    ensures Value(j, marshal).error.None?
    ensures Scan(None, Value(j, marshal).value, unmarshal) == ScanOutcome(j, None)
  {
  }
}

=== FILE: server_api.dfy ===
/**
 The request records of the server (server/main.go) and the binding check
 gin applies to an AI generation request before the handler runs.
 */
module Api {
  import opened Common
  import opened Models

  /**
   `QuestionRequest`: a question as the API accepts it and as generation
   returns it. Type and difficulty are free strings, as Go's string-based
   enum types allow; only the classifiers below make them canonical.
   */
  datatype QuestionRequest = QuestionRequest(
    typ: string,
    content: string,
    options: Json,
    answer: string,
    difficulty: string,
    language: string)

  /** `AIGenerateRequest`, after JSON decoding. */
  datatype GenerateRequest = GenerateRequest(
    typ: string,
    count: int,
    difficulty: string,
    language: string,
    topic: string)

  /** The binding tags: type, difficulty and language required (non-empty), 1 <= count <= 20. */
  predicate WellFormed(req: GenerateRequest) {
    && req.typ != ""
    && 1 <= req.count <= 20
    && req.difficulty != ""
    && req.language != ""
  }

  /** Prefix of the 400 reply when binding fails. */
  const BindErrorPrefix: string := "请求参数错误: "

  /** The 400 reply of the explicit language check (already implied by the binding tag). */
  const MissingLanguageError: string := "编程语言不能为空"

  /**
   Binding followed by the explicit empty-language check: a request is
   accepted exactly when it satisfies the binding tags.
   */
  function BindGenerate(req: GenerateRequest): (r: Result<GenerateRequest>)
    ensures r.Ok? <==> WellFormed(req)
    ensures r.Ok? ==> r.value == req
    ensures r.Err? ==> r.message == BindErrorPrefix
  {
    if !(req.typ != "" && 1 <= req.count <= 20 && req.difficulty != "" && req.language != "") then
      Err(BindErrorPrefix)
    else if req.language == "" then
      Err(MissingLanguageError)
    else
      Ok(req)
  }
}

=== FILE: server_generate.dfy ===
/**
 The AI generation endpoint of the server (server/main.go): placeholder
 questions, the dispatch over the decoding fallbacks of `parseAIResponse`,
 the count adjustment and final validation, and the handler's replies.
 The AI service and encoding/json are not modelled: the handler receives
 what they produced as data.
 */
module Generate {
  import opened Common
  import opened Text
  import opened Models
  import opened Api
  import opened Normalize
  import opened JsonClean

  // ---------------------------------------------------------------------
  // Placeholder questions
  // ---------------------------------------------------------------------

  const PlaceholderHead: string := "请在此处填写第"
  const PlaceholderTail: string := "题题目内容"

  /** The placeholder content `请在此处填写第%d题题目内容`. */
  function PlaceholderContent(index: nat): (c: string)
    ensures |c| > 0
    ensures Contains(c, Decimal(index))
  {
    ContainsInfix(PlaceholderHead, Decimal(index), PlaceholderTail);
    PlaceholderHead + Decimal(index) + PlaceholderTail
  }

  /**
   `createDefaultQuestion`: the request's type, difficulty and language, a
   numbered placeholder content, and for a choice type the options A-D with
   answer "A"; any other type gets neither options nor answer.
   */
  function CreateDefaultQuestion(req: GenerateRequest, index: nat): (q: QuestionRequest)
    ensures q.typ == req.typ && q.difficulty == req.difficulty && q.language == req.language
    ensures q.content != "" && Contains(q.content, Decimal(index))
    ensures IsChoiceName(req.typ) ==> q.options.Some? && q.options.value.Keys == {"A", "B", "C", "D"}
    ensures IsChoiceName(req.typ) ==> q.answer == "A"
    ensures !IsChoiceName(req.typ) ==> q.options.None? && q.answer == ""
  {
    var q := QuestionRequest(req.typ, PlaceholderContent(index), None, "", req.difficulty, req.language);
    if req.typ == SingleChoice.Name() || req.typ == MultipleChoice.Name() then
      q.(options := DefaultOptions(), answer := "A")
    else if req.typ == Programming.Name() then
      q.(answer := "")
    else
      q
  }

  /** Placeholders with different numbers have different contents. */
  lemma PlaceholdersDistinct(req: GenerateRequest, i: nat, j: nat)
    requires i != j
    ensures CreateDefaultQuestion(req, i).content != CreateDefaultQuestion(req, j).content
  {
    DecimalInjective(i, j);
    InfixCancel(PlaceholderHead, Decimal(i), Decimal(j), PlaceholderTail);
  }

  /** Different middles give different strings between the same head and tail. */
  lemma InfixCancel(h: string, x: string, y: string, t: string)
    requires x != y
    ensures h + x + t != h + y + t
  {
    if |x| == |y| {
      var k :| 0 <= k < |x| && x[k] != y[k];
      assert (h + x + t)[|h| + k] == x[k];
      assert (h + y + t)[|h| + k] == y[k];
    }
  }

  /** `createFallbackQuestions`: placeholders numbered 1..Count (none for a non-positive count). */
  function CreateFallbackQuestions(req: GenerateRequest): (qs: seq<QuestionRequest>)
    ensures |qs| == (if req.count > 0 then req.count else 0)
    ensures forall i :: 0 <= i < |qs| ==> qs[i] == CreateDefaultQuestion(req, i + 1)
  {
    var n := if req.count > 0 then req.count else 0;
    seq(n, i requires 0 <= i < n => CreateDefaultQuestion(req, i + 1))
  }

  // ---------------------------------------------------------------------
  // Count adjustment and final validation
  // ---------------------------------------------------------------------

  /** A question the final validation keeps: non-empty type and content. */
  predicate Usable(q: QuestionRequest) {
    q.typ != "" && q.content != ""
  }

  /** Truncate to `count`, or pad with placeholders numbered after the last question. */
  function AdjustCount(qs: seq<QuestionRequest>, req: GenerateRequest): (rs: seq<QuestionRequest>)
    requires req.count >= 0
    ensures |rs| == req.count
    ensures forall i :: 0 <= i < |rs| && i < |qs| ==> rs[i] == qs[i]
    ensures forall i :: |qs| <= i < |rs| ==> rs[i] == CreateDefaultQuestion(req, i + 1)
  {
    if |qs| > req.count then qs[..req.count]
    else qs + seq(req.count - |qs|, k requires 0 <= k < req.count - |qs| => CreateDefaultQuestion(req, |qs| + k + 1))
  }

  /** Every question without a type or content is replaced by the placeholder of its position. */
  function FinalValidation(qs: seq<QuestionRequest>, req: GenerateRequest): (rs: seq<QuestionRequest>)
    ensures |rs| == |qs|
    ensures forall i :: 0 <= i < |qs| && Usable(qs[i]) ==> rs[i] == qs[i]
    ensures forall i :: 0 <= i < |qs| && !Usable(qs[i]) ==> rs[i] == CreateDefaultQuestion(req, i + 1)
  {
    seq(|qs|, i requires 0 <= i < |qs| => if Usable(qs[i]) then qs[i] else CreateDefaultQuestion(req, i + 1))
  }

  /**
   Count adjustment followed by final validation: exactly `count` questions,
   each usable; every usable question among the first `count` is kept in its
   place, every other place holds the placeholder with its 1-based number.
   */
  function FinishGeneration(qs: seq<QuestionRequest>, req: GenerateRequest): (rs: seq<QuestionRequest>)
    requires WellFormed(req)
    ensures |rs| == req.count
    ensures forall i :: 0 <= i < |rs| ==> Usable(rs[i])
    ensures forall i :: 0 <= i < |rs| && i < |qs| && Usable(qs[i]) ==> rs[i] == qs[i]
    ensures forall i :: 0 <= i < |rs| && !(i < |qs| && Usable(qs[i])) ==> rs[i] == CreateDefaultQuestion(req, i + 1)
  {
    FinalValidation(AdjustCount(qs, req), req)
  }

  /** The fallback list already has the requested size and passes the final validation untouched. */
  lemma FallbackIsFinished(req: GenerateRequest)
    requires WellFormed(req)
    ensures FinishGeneration(CreateFallbackQuestions(req), req) == CreateFallbackQuestions(req)
  {
    var fb := CreateFallbackQuestions(req);
    var rs := FinishGeneration(fb, req);
    forall i | 0 <= i < |fb|
      ensures rs[i] == fb[i]
    {
      assert Usable(fb[i]);
    }
  }

  // ---------------------------------------------------------------------
  // parseAIResponse
  // ---------------------------------------------------------------------

  /** How one element of a JSON array decoded in `parseRawQuestion`. */
  datatype RawDecoding =
    | RawRequest(q: QuestionRequest)            // decoded straight into a QuestionRequest
    | RawMap(fields: map<string, JsonValue>)    // only decoded as a generic map
    | RawInvalid                                // not even a map: skipped

  /**
   The first decoding of the cleaned AI content that succeeded, in the order
   `parseAIResponse` tries them.
   */
  datatype AIDecoding =
    | AsRequests(questions: seq<QuestionRequest>)
    | AsTemps(temps: seq<TempQuestion>)
    | AsTemp(temp: TempQuestion)
    | AsRawArray(raws: seq<RawDecoding>)
    | Undecodable

  /** `parseRawQuestion` on a decodable element. */
  function ParseRawQuestion(raw: RawDecoding, req: GenerateRequest, f: Formatter,
                            decode: string -> OptionsDecoding): (q: QuestionRequest)
    requires !raw.RawInvalid?
    ensures raw.RawRequest? ==> q == NormalizeQuestion(raw.q, req)
    ensures raw.RawMap? ==> q == ConvertMapToQuestion(raw.fields, req, f, decode)
  {
    match raw
    case RawRequest(q) => NormalizeQuestion(q, req)
    case RawMap(m) => ConvertMapToQuestion(m, req, f, decode)
  }

  /** The elements that decode, in their original order. */
  function Kept(raws: seq<RawDecoding>): (ks: seq<RawDecoding>)
    ensures |ks| == |raws| - CountInvalid(raws)
    ensures forall k :: 0 <= k < |ks| ==> !ks[k].RawInvalid? && ks[k] in raws
    decreases |raws|
  {
    if raws == [] then []
    else if raws[0].RawInvalid? then Kept(raws[1..])
    else [raws[0]] + Kept(raws[1..])
  }

  /** A single element is kept exactly when it decodes. */
  lemma KeptSingle(x: RawDecoding)
    ensures Kept([x]) == if x.RawInvalid? then [] else [x]
  {
  }

  /** Keeping distributes over concatenation, so the kept elements keep their relative order. */
  lemma {:induction false} KeptAppend(a: seq<RawDecoding>, b: seq<RawDecoding>)
    ensures Kept(a + b) == Kept(a) + Kept(b)
    decreases |a|
  {
    if a != [] {
      assert (a + b)[1..] == a[1..] + b;
      KeptAppend(a[1..], b);
    } else {
      assert a + b == b;
    }
  }

  /** The loop over the raw array: every element that decodes is converted, in order; the others are skipped. */
  function ParseRawArray(raws: seq<RawDecoding>, req: GenerateRequest, f: Formatter,
                         decode: string -> OptionsDecoding): (qs: seq<QuestionRequest>)
    ensures |qs| == |Kept(raws)|
    ensures forall k :: 0 <= k < |qs| ==> qs[k] == ParseRawQuestion(Kept(raws)[k], req, f, decode)
    decreases |raws|
  {
    if raws == [] then []
    else
      var rest := ParseRawArray(raws[1..], req, f, decode);
      if raws[0].RawInvalid? then
        assert Kept(raws) == Kept(raws[1..]);
        rest
      else
        assert Kept(raws) == [raws[0]] + Kept(raws[1..]);
        [ParseRawQuestion(raws[0], req, f, decode)] + rest
  }

  function CountInvalid(raws: seq<RawDecoding>): (n: nat)
    ensures n <= |raws|
    decreases |raws|
  {
    if raws == [] then 0 else (if raws[0].RawInvalid? then 1 else 0) + CountInvalid(raws[1..])
  }

  /**
   `parseAIResponse`: `None` is its error return, which happens when nothing
   decodes or an array yields no usable element.
   */
  function ParseAIResponse(d: AIDecoding, req: GenerateRequest, f: Formatter,
                           decode: string -> OptionsDecoding): (r: Option<seq<QuestionRequest>>)
    ensures r.None? <==> d.Undecodable? || (d.AsRawArray? && CountInvalid(d.raws) == |d.raws|)
    ensures d.AsRequests? ==> r == Some(NormalizeQuestions(d.questions, req))
    ensures d.AsTemps? ==> r == Some(ConvertTempToQuestions(d.temps, req, f, decode))
    ensures d.AsTemp? ==> r == Some([ConvertSingleTempToQuestion(d.temp, req, f, decode)])
    ensures d.AsRawArray? && r.Some? ==> |r.value| == |Kept(d.raws)|
    ensures d.AsRawArray? && r.Some? ==>
              forall k :: 0 <= k < |r.value| ==> r.value[k] == ParseRawQuestion(Kept(d.raws)[k], req, f, decode)
  {
    match d
    case AsRequests(qs) => Some(NormalizeQuestions(qs, req))
    case AsTemps(ts) => Some(ConvertTempToQuestions(ts, req, f, decode))
    case AsTemp(t) => Some([ConvertSingleTempToQuestion(t, req, f, decode)])
    case AsRawArray(raws) =>
      var qs := ParseRawArray(raws, req, f, decode);
      if |qs| > 0 then Some(qs) else None
    case Undecodable => None
  }

  /**
   `parseAIResponse` on the raw content of the AI's first choice: the content
   is cleaned, then `decodeAI` (the cascade of json.Unmarshal attempts)
   reports which decoding succeeded first.
   */
  function ParseAIContent(content: string, req: GenerateRequest, env: Env): Option<seq<QuestionRequest>>
  {
    ParseAIResponse(env.decodeAI(CleanJSONContent(content, env.repairs)), req, env.format, env.decodeOptions)
  }

  /** What the handler receives from libraries it calls: encoding/json, fmt and the repair regexps. */
  datatype Env = Env(
    format: Formatter,
    decodeOptions: string -> OptionsDecoding,
    decodeAI: string -> AIDecoding,
    repairs: Repairs)

  // ---------------------------------------------------------------------
  // The handler
  // ---------------------------------------------------------------------

  /** The decoded body of a 200 reply of the AI service: `error.message` and each choice's message content. */
  datatype AIBody = AIBody(errorMessage: string, contents: seq<string>)

  /**
   What came back from the AI service: a transport error, or a status with
   its body and the outcome of decoding that body.
   */
  datatype AIReply =
    | CallFailed(error: string)
    | Responded(status: nat, body: string, decoded: Result<AIBody>)

  datatype GenerateResponse =
    | Generated(questions: seq<QuestionRequest>)   // 200
    | BadRequest(message: string)                  // 400
    | ServerError(message: string)                 // 500

  /** The reply carries usable content: status 200, a decodable body, no error message, at least one choice. */
  predicate Answered(reply: AIReply) {
    && reply.Responded?
    && reply.status == 200
    && reply.decoded.Ok?
    && reply.decoded.value.errorMessage == ""
    && |reply.decoded.value.contents| > 0
  }

  /**
   `generateQuestions`: 400 exactly for a request that fails binding, 500
   exactly for a well-formed request whose AI call did not produce content,
   and otherwise exactly `count` usable questions.
   */
  function GenerateQuestions(req: GenerateRequest, reply: AIReply, env: Env): (r: GenerateResponse)
    ensures r.BadRequest? <==> !WellFormed(req)
    ensures r.ServerError? <==> WellFormed(req) && !Answered(reply)
    ensures r.Generated? ==> |r.questions| == req.count
    ensures r.Generated? ==> forall i :: 0 <= i < |r.questions| ==> Usable(r.questions[i])
  {
    match BindGenerate(req)
    case Err(msg) => BadRequest(msg)
    case Ok(req) => HandleReply(req, reply, env)
  }

  /**
   The AI replies the handler refuses, in the order it tests them: the 500 message for
   a transport error, a status other than 200, an undecodable body, an error
   reported by the service, or no choices; none when the reply is usable.
   */
  function ReplyError(reply: AIReply): (e: Option<string>)
    ensures e.None? <==> Answered(reply)
  {
    match reply
    case CallFailed(err) => Some("AI服务调用失败: " + err)
    case Responded(status, body, decoded) =>
      if status != 200 then
        Some("AI服务返回错误，状态码: " + Decimal(status) + ", 响应: " + body)
      else if decoded.Err? then
        Some("解析AI响应失败: " + decoded.message)
      else if decoded.value.errorMessage != "" then
        Some("AI服务错误: " + decoded.value.errorMessage)
      else if |decoded.value.contents| == 0 then
        Some("AI未返回任何内容")
      else
        None
  }

  /** The handler after binding: a 500 for a failed reply, else parsing with the placeholder fallback. */
  function HandleReply(req: GenerateRequest, reply: AIReply, env: Env): (r: GenerateResponse)
    requires WellFormed(req)
    ensures !r.BadRequest?
    ensures r.ServerError? <==> !Answered(reply)
    ensures r.Generated? ==> |r.questions| == req.count
    ensures r.Generated? ==> forall i :: 0 <= i < |r.questions| ==> Usable(r.questions[i])
  {
    match ReplyError(reply)
    case Some(msg) => ServerError(msg)
    case None =>
      var parsed := ParseAIContent(reply.decoded.value.contents[0], req, env);
      var qs := if parsed.Some? then parsed.value else CreateFallbackQuestions(req);
      Generated(FinishGeneration(qs, req))
  }

  /** A 200 reply whose content nothing can decode still gives the client exactly the placeholders. */
  lemma UndecodableGivesFallback(req: GenerateRequest, reply: AIReply, env: Env)
    requires WellFormed(req) && Answered(reply)
    requires env.decodeAI(CleanJSONContent(reply.decoded.value.contents[0], env.repairs)).Undecodable?
    ensures GenerateQuestions(req, reply, env) == Generated(CreateFallbackQuestions(req))
  {
    FallbackIsFinished(req);
  }

  /**
   When the AI returns exactly `count` well-formed questions, the client gets
   each of them normalized, in order, and nothing else.
   */
  lemma GoodReplyIsNormalized(req: GenerateRequest, reply: AIReply, env: Env, qs: seq<QuestionRequest>)
    requires WellFormed(req) && Answered(reply)
    requires env.decodeAI(CleanJSONContent(reply.decoded.value.contents[0], env.repairs)) == AsRequests(qs)
    requires |qs| == req.count
    requires forall i :: 0 <= i < |qs| ==> Usable(qs[i])
    ensures GenerateQuestions(req, reply, env) == Generated(NormalizeQuestions(qs, req))
  {
    var ns := NormalizeQuestions(qs, req);
    forall i | 0 <= i < |ns|
      ensures Usable(ns[i])
    {
      NormalizeKeepsUsable(qs[i], req);
    }
    FinishKeepsUsable(ns, req);
    assert ParseAIContent(reply.decoded.value.contents[0], req, env) == Some(ns);
  }

  /** Normalization never empties a type or a content. */
  lemma NormalizeKeepsUsable(q: QuestionRequest, req: GenerateRequest)
    requires Usable(q)
    ensures Usable(NormalizeQuestion(q, req))
  {
  }

  /** A list of exactly `count` usable questions passes adjustment and validation untouched. */
  lemma FinishKeepsUsable(qs: seq<QuestionRequest>, req: GenerateRequest)
    requires WellFormed(req) && |qs| == req.count
    requires forall i :: 0 <= i < |qs| ==> Usable(qs[i])
    ensures FinishGeneration(qs, req) == qs
  {
  }
}

=== FILE: server_json_clean.dfy ===
/**
 `cleanJSONContent` (server/main.go): the clean-up applied to the AI's reply
 before it is decoded. It trims, removes Markdown code fences, cuts the text
 down to the first bracketed value found by a bracket stack, and applies
 textual repairs. The three regular-expression repairs are parameters;
 every other step is modelled.
 */
module JsonClean {
  import opened Common
  import opened Text

  predicate IsOpener(c: char) { c == '[' || c == '{' }

  /** The closer that pops an opener. */
  function Closer(c: char): char
    requires IsOpener(c)
  {
    if c == '[' then ']' else '}'
  }

  /** Trim, then delete every "```json", "```javascript" and "```", in that order. */
  function StripFences(s: string): string {
    ReplaceAll(ReplaceAll(ReplaceAll(TrimSpace(s), "```json", ""), "```javascript", ""), "```", "")
  }

  /** Text without a backtick that is already trimmed comes through the fence removal unchanged. */
  lemma StripFencesKeepsPlain(s: string)
    requires Trimmed(s) && '`' !in s
    ensures StripFences(s) == s
  {
    TrimSpaceKeepsTrimmed(s);
    NotContainsMissingChar(s, "```json", '`');
    ReplaceAllAbsent(s, "```json", "");
    NotContainsMissingChar(s, "```javascript", '`');
    ReplaceAllAbsent(s, "```javascript", "");
    NotContainsMissingChar(s, "```", '`');
    ReplaceAllAbsent(s, "```", "");
  }

  /** The position of the first `[` or `{`. */
  function FirstOpener(s: string): (r: Option<nat>)
    ensures r.Some? ==> r.value < |s| && IsOpener(s[r.value])
    ensures r.Some? ==> forall j :: 0 <= j < r.value ==> !IsOpener(s[j])
    ensures r.None? ==> forall j :: 0 <= j < |s| ==> !IsOpener(s[j])
  {
    if s == [] then None
    else if IsOpener(s[0]) then Some(0)
    else
      match FirstOpener(s[1..])
      case None => None
      case Some(i) => Some(i + 1)
  }

  // ---------------------------------------------------------------------
  // The bracket stack
  // ---------------------------------------------------------------------

  /**
   One character of the bracket scan: openers are pushed, a closer pops only
   when it matches the top, and every other character (a closer that does
   not match included) leaves the stack alone.
   */
  function Step(stack: seq<char>, c: char): seq<char> {
    if IsOpener(c) then stack + [c]
    else if c == ']' && |stack| > 0 && stack[|stack| - 1] == '[' then stack[..|stack| - 1]
    else if c == '}' && |stack| > 0 && stack[|stack| - 1] == '{' then stack[..|stack| - 1]
    else stack
  }

  /** The stack after scanning the first `k` characters of `t`. */
  function StackAfter(t: string, k: nat): seq<char>
    requires k <= |t|
  {
    if k == 0 then [] else Step(StackAfter(t, k - 1), t[k - 1])
  }

  /** The first length `k >= from` at which the stack is empty, if any. */
  function FirstClose(t: string, from: nat): (r: Option<nat>)
    requires 1 <= from
    ensures r.Some? ==> from <= r.value <= |t| && StackAfter(t, r.value) == []
    ensures r.Some? ==> forall j :: from <= j < r.value ==> StackAfter(t, j) != []
    ensures r.None? ==> forall j :: from <= j <= |t| ==> StackAfter(t, j) != []
    decreases |t| + 1 - from
  {
    if from > |t| then None
    else if StackAfter(t, from) == [] then Some(from)
    else FirstClose(t, from + 1)
  }

  /**
   The scan of `t` from its first character: the shortest prefix after which
   the stack is empty, or all of `t` when the stack never empties.
   */
  function ExtractBalanced(t: string): (r: string)
    ensures r <= t
  {
    match FirstClose(t, 1)
    case Some(k) => t[..k]
    case None => t
  }

  /** The loop of the source, which stops at the first empty stack, computes `ExtractBalanced`. */
  method ScanBalanced(t: string) returns (r: string)
    ensures r == ExtractBalanced(t)
  {
    var stack: seq<char> := [];
    var i := 0;
    while i < |t|
      invariant 0 <= i <= |t|
      invariant stack == StackAfter(t, i)
      invariant forall j :: 1 <= j <= i ==> StackAfter(t, j) != []
    {
      stack := Step(stack, t[i]);
      if |stack| == 0 {
        assert StackAfter(t, i + 1) == [];
        assert FirstClose(t, 1).Some?;
        return t[..i + 1];
      }
      i := i + 1;
    }
    return t;
  }

  /** Once the scan starts with an opener, that opener stays at the bottom of the stack until it is popped. */
  lemma {:induction false} BottomStays(t: string, k: nat)
    requires 1 <= k <= |t| && IsOpener(t[0])
    requires forall j :: 1 <= j < k ==> StackAfter(t, j) != []
    ensures StackAfter(t, k) != [] ==> StackAfter(t, k)[0] == t[0]
    ensures StackAfter(t, k) == [] ==> k >= 2 && StackAfter(t, k - 1) == [t[0]] && t[k - 1] == Closer(t[0])
  {
    if k > 1 {
      BottomStays(t, k - 1);
    }
  }

  /** The scan of the source cut at the first `[` or `{`; text without either is left as it is. */
  function ExtractJSON(s: string): (r: string)
    ensures FirstOpener(s).None? ==> r == s
    ensures FirstOpener(s).Some? ==> r == ExtractBalanced(s[FirstOpener(s).value..])
  {
    match FirstOpener(s)
    case None => s
    case Some(i) => ExtractBalanced(s[i..])
  }

  /**
   What the extraction yields: a piece of the text that starts at the first
   opener; when its brackets balance it ends with the closer of that opener,
   and no shorter piece balances.
   */
  lemma ExtractJSONShape(s: string)
    requires FirstOpener(s).Some?
    ensures var i := FirstOpener(s).value;
            var r := ExtractJSON(s);
            && r == s[i..i + |r|]
            && |r| >= 1 && r[0] == s[i]
            && (StackAfter(r, |r|) == [] ==> |r| >= 2 && r[|r| - 1] == Closer(r[0]))
            && (forall j :: 1 <= j < |r| ==> StackAfter(r, j) != [])
  {
    var i := FirstOpener(s).value;
    var t := s[i..];
    var r := ExtractJSON(s);
    assert r <= t;
    assert StackAfter(t, 1) == [t[0]];
    match FirstClose(t, 1)
    case Some(k) =>
      BottomStays(t, k);
      StackAfterPrefix(t, k, k);
      forall j | 1 <= j < |r|
        ensures StackAfter(r, j) != []
      {
        StackAfterPrefix(t, k, j);
      }
    case None =>
  }

  /** When the brackets never balance, the extraction keeps everything from the first opener on. */
  lemma ExtractJSONUnbalanced(s: string)
    requires FirstOpener(s).Some?
    ensures var r := ExtractJSON(s);
            StackAfter(r, |r|) != [] ==> r == s[FirstOpener(s).value..]
  {
    var t := s[FirstOpener(s).value..];
    match FirstClose(t, 1)
    case Some(k) =>
      StackAfterPrefix(t, k, k);
    case None =>
  }

  /** The stack after `j` characters depends only on those characters. */
  lemma {:induction false} StackAfterPrefix(t: string, m: nat, j: nat)
    requires j <= m <= |t|
    ensures StackAfter(t[..m], j) == StackAfter(t, j)
  {
    if j > 0 {
      StackAfterPrefix(t, m, j - 1);
      assert t[..m][j - 1] == t[j - 1];
    }
  }

  /** Extracting again changes nothing. */
  lemma ExtractJSONIdempotent(s: string)
    ensures ExtractJSON(ExtractJSON(s)) == ExtractJSON(s)
  {
    match FirstOpener(s)
    case None =>
    case Some(i) =>
      var t := s[i..];
      var r := ExtractJSON(s);
      assert FirstOpener(r) == Some(0);
      assert r[0..] == r;
      match FirstClose(t, 1)
      case Some(k) =>
        forall j | 1 <= j <= k
          ensures StackAfter(r, j) == StackAfter(t, j)
        {
          StackAfterPrefix(t, k, j);
        }
        assert FirstClose(r, 1) == Some(k);
      case None =>
  }

  // ---------------------------------------------------------------------
  // The whole clean-up
  // ---------------------------------------------------------------------

  /**
   The regular-expression repairs, as functions of the text: quoting bare
   keys (`([{,]\s*)(\w+)(\s*:)`) and removing trailing commas
   (`,\s*([}\]])`, repeated while it matches). The last repair of the
   source, `"(\d+)":` to `"$1":`, writes back what it matched and is the
   identity, so it has no counterpart here.
   */
  datatype Repairs = Repairs(quoteKeys: string -> string, dropTrailingCommas: string -> string)

  /** Single quotes become double quotes; `: true`, `: false` and `: null` become strings. */
  function FixLiterals(s: string): string {
    var s1 := ReplaceAll(s, "'", "\"");
    var s2 := ReplaceAll(s1, ": true", ": \"true\"");
    var s3 := ReplaceAll(s2, ": false", ": \"false\"");
    ReplaceAll(s3, ": null", ": \"\"")
  }

  /** `cleanJSONContent`. */
  function CleanJSONContent(content: string, repairs: Repairs): (r: string)
    ensures Trimmed(r)
  {
    var extracted := ExtractJSON(StripFences(content));
    TrimSpace(repairs.dropTrailingCommas(FixLiterals(repairs.quoteKeys(extracted))))
  }

  /**
   A reply that is already one clean, balanced JSON value, with no fences,
   single quotes or bare literals after a colon, and on which the regular
   expressions find nothing, comes through unchanged.
   */
  lemma CleanKeepsCleanJSON(content: string, repairs: Repairs)
    requires Trimmed(content) && '`' !in content && '\'' !in content
    requires |content| >= 1 && IsOpener(content[0])
    requires FirstClose(content, 1) == Some(|content|)
    requires !Contains(content, ": true") && !Contains(content, ": false") && !Contains(content, ": null")
    requires repairs.quoteKeys(content) == content && repairs.dropTrailingCommas(content) == content
    ensures CleanJSONContent(content, repairs) == content
  {
    StripFencesKeepsPlain(content);
    assert FirstOpener(content) == Some(0);
    assert content[0..] == content;
    assert content[..|content|] == content;
    NotContainsMissingChar(content, "'", '\'');
    ReplaceAllAbsent(content, "'", "\"");
    ReplaceAllAbsent(content, ": true", ": \"true\"");
    ReplaceAllAbsent(content, ": false", ": \"false\"");
    ReplaceAllAbsent(content, ": null", ": \"\"");
    TrimSpaceKeepsTrimmed(content);
  }
}

=== FILE: server_normalize.dfy ===
/**
 Normalisation of AI output on the server (server/main.go): the fuzzy
 classifiers that map free text to a canonical type or difficulty,
 `normalizeQuestion`, and the two converters that turn loosely typed
 decoded JSON into a `QuestionRequest`.
 */
module Normalize {
  import opened Common
  import opened Text
  import opened Models
  import opened Api

  // ---------------------------------------------------------------------
  // Classifiers
  // ---------------------------------------------------------------------

  predicate MentionsSingle(s: string) {
    var l := ToLower(s); Contains(l, "single") || Contains(l, "单选题")
  }

  predicate MentionsMultiple(s: string) {
    var l := ToLower(s); Contains(l, "multiple") || Contains(l, "多选题")
  }

  predicate MentionsProgramming(s: string) {
    var l := ToLower(s); Contains(l, "programming") || Contains(l, "编程题")
  }

  /**
   `validateAndConvertType`: the first keyword found, in the order single,
   multiple, programming, decides; with none of them the answer is single choice.
   */
  function ClassifyType(s: string): (t: QuestionType)
    ensures t == SingleChoice <==> MentionsSingle(s) || (!MentionsMultiple(s) && !MentionsProgramming(s))
    ensures t == MultipleChoice <==> !MentionsSingle(s) && MentionsMultiple(s)
    ensures t == Programming <==> !MentionsSingle(s) && !MentionsMultiple(s) && MentionsProgramming(s)
  {
    if MentionsSingle(s) then SingleChoice
    else if MentionsMultiple(s) then MultipleChoice
    else if MentionsProgramming(s) then Programming
    else SingleChoice
  }

  predicate MentionsEasy(s: string) {
    var l := ToLower(s); Contains(l, "easy") || Contains(l, "简单")
  }

  predicate MentionsMedium(s: string) {
    var l := ToLower(s); Contains(l, "medium") || Contains(l, "中等")
  }

  predicate MentionsHard(s: string) {
    var l := ToLower(s); Contains(l, "hard") || Contains(l, "困难")
  }

  /**
   `validateAndConvertDifficulty`: the first keyword found, in the order easy,
   medium, hard, decides; with none of them the answer is medium.
   */
  function ClassifyDifficulty(s: string): (d: Difficulty)
    ensures d == Easy <==> MentionsEasy(s)
    ensures d == Medium <==> !MentionsEasy(s) && (MentionsMedium(s) || !MentionsHard(s))
    ensures d == Hard <==> !MentionsEasy(s) && !MentionsMedium(s) && MentionsHard(s)
  {
    if MentionsEasy(s) then Easy
    else if MentionsMedium(s) then Medium
    else if MentionsHard(s) then Hard
    else Medium
  }

  /** A string with no upper-case ASCII letter is its own lower-case form. */
  lemma LowerOfLowerCase(s: string)
    requires forall i :: 0 <= i < |s| ==> !IsAsciiUpper(s[i])
    ensures ToLower(s) == s
  {
  }

  /** "multiple_choice" holds none of the single-choice keywords. */
  lemma MultipleNameFacts()
    ensures !Contains("multiple_choice", "single") && !Contains("multiple_choice", "单选题")
  {
    NotContainsMissingChar("multiple_choice", "single", 's');
    NotContainsMissingChar("multiple_choice", "单选题", '单');
  }

  /** "programming" holds none of the single- or multiple-choice keywords. */
  lemma ProgrammingNameFacts()
    ensures !Contains("programming", "single") && !Contains("programming", "单选题")
    ensures !Contains("programming", "multiple") && !Contains("programming", "多选题")
  {
    NotContainsMissingChar("programming", "single", 's');
    NotContainsMissingChar("programming", "单选题", '单');
    NotContainsMissingChar("programming", "multiple", 'u');
    NotContainsMissingChar("programming", "多选题", '多');
  }

  /** "medium" holds none of the easy keywords. */
  lemma MediumNameFacts()
    ensures !Contains("medium", "easy") && !Contains("medium", "简单")
  {
    NotContainsMissingChar("medium", "easy", 'a');
    NotContainsMissingChar("medium", "简单", '简');
  }

  /** "hard" holds none of the easy or medium keywords. */
  lemma HardNameFacts()
    ensures !Contains("hard", "easy") && !Contains("hard", "简单")
    ensures !Contains("hard", "medium") && !Contains("hard", "中等")
  {
    NotContainsMissingChar("hard", "easy", 'e');
    NotContainsMissingChar("hard", "简单", '简');
    NotContainsMissingChar("hard", "medium", 'm');
    NotContainsMissingChar("hard", "中等", '中');
  }

  /** Every canonical type name is classified as the type it names. */
  lemma ClassifyTypeOfName(t: QuestionType)
    ensures ClassifyType(t.Name()) == t
  {
    var n := t.Name();
    LowerOfLowerCase(n);
    match t
    case SingleChoice =>
      ContainsPrefix(n, "single");
    case MultipleChoice =>
      MultipleNameFacts();
      ContainsPrefix(n, "multiple");
    case Programming =>
      ProgrammingNameFacts();
      ContainsPrefix(n, "programming");
  }

  /** Every canonical difficulty name is classified as the difficulty it names. */
  lemma ClassifyDifficultyOfName(d: Difficulty)
    ensures ClassifyDifficulty(d.Name()) == d
  {
    var n := d.Name();
    LowerOfLowerCase(n);
    match d
    case Easy =>
      ContainsPrefix(n, "easy");
    case Medium =>
      MediumNameFacts();
      ContainsPrefix(n, "medium");
    case Hard =>
      HardNameFacts();
      ContainsPrefix(n, "hard");
  }

  /** The classifiers ignore ASCII case: upper-casing the input changes nothing. */
  lemma ClassifiersIgnoreCase(s: string)
    ensures ClassifyType(ToUpper(s)) == ClassifyType(s)
    ensures ClassifyDifficulty(ToUpper(s)) == ClassifyDifficulty(s)
  {
    LowerOfUpper(s);
  }

  /** A keyword anywhere in the text wins over everything checked after it. */
  lemma SingleKeywordWins(x: string, y: string)
    ensures ClassifyType(x + "single" + y) == SingleChoice
  {
    var s := x + "single" + y;
    var l := ToLower(s);
    LowerOfLowerCase("single");
    assert l == ToLower(x) + "single" + ToLower(y);
    ContainsInfix(ToLower(x), "single", ToLower(y));
  }

  // ---------------------------------------------------------------------
  // normalizeQuestion
  // ---------------------------------------------------------------------

  /** Reference definition of a cleaned answer label: spaces dropped, letters upper-cased. */
  function CompactUpper(s: string): (r: string)
    ensures ' ' !in r && NoLowerCase(r)
  {
    var w := Without(s, ' ');
    ToUpperMeaning(w);
    ToUpper(w)
  }

  /** The answer clean-up of `normalizeQuestion`: `strings.ToUpper(strings.ReplaceAll(a, " ", ""))` on a non-empty answer. */
  function CleanAnswer(a: string): (r: string)
    ensures r == CompactUpper(a)
  {
    ReplaceCharByNothing(a, ' ');
    if a != "" then ToUpper(ReplaceAll(a, " ", "")) else a
  }

  /** A cleaned label is left alone by a second clean-up. */
  lemma CleanAnswerIdempotent(a: string)
    ensures CleanAnswer(CleanAnswer(a)) == CleanAnswer(a)
  {
    var c := CleanAnswer(a);
    WithoutAbsent(c, ' ');
    assert ToUpper(c) == c;
  }

  /** Dropping a character that does not occur changes nothing. */
  lemma {:induction false} WithoutAbsent(s: string, c: char)
    requires c !in s
    ensures Without(s, c) == s
    decreases |s|
  {
    if s != [] {
      assert c !in s[1..];
      WithoutAbsent(s[1..], c);
    }
  }

  /** The placeholder options A-D used whenever a choice question has none. */
  function DefaultOptionTexts(): map<string, string> {
    map["A" := "选项A", "B" := "选项B", "C" := "选项C", "D" := "选项D"]
  }

  /** `toModelsJSON`: a string map becomes a non-nil JSON map of string values (nil stays nil upstream). */
  function ToModelsJson(m: map<string, string>): (j: Json)
    ensures j.Some? && j.value.Keys == m.Keys
    ensures forall k :: k in m ==> j.value[k] == JString(m[k])
  {
    Some(map k | k in m :: JString(m[k]))
  }

  function DefaultOptions(): (j: Json)
    ensures j.Some? && j.value.Keys == {"A", "B", "C", "D"}
  {
    ToModelsJson(DefaultOptionTexts())
  }

  /**
   `normalizeQuestion`: fills an empty type, difficulty or language from the
   request, classifies non-empty ones, and enforces the per-type shape.
   */
  function NormalizeQuestion(q: QuestionRequest, req: GenerateRequest): (r: QuestionRequest)
    ensures r.content == q.content
    ensures q.typ == "" ==> r.typ == req.typ
    ensures q.typ != "" ==> r.typ == ClassifyType(q.typ).Name()
    ensures q.difficulty == "" ==> r.difficulty == req.difficulty
    ensures q.difficulty != "" ==> r.difficulty == ClassifyDifficulty(q.difficulty).Name()
    ensures r.language == (if q.language == "" then req.language else q.language)
    ensures IsChoiceName(r.typ) ==> r.options.Some? && ' ' !in r.answer && NoLowerCase(r.answer)
    ensures IsChoiceName(r.typ) ==> r.answer == CompactUpper(q.answer)
    ensures IsChoiceName(r.typ) && q.options.Some? ==> r.options == q.options
    ensures IsChoiceName(r.typ) && q.options.None? ==> r.options == DefaultOptions()
    ensures r.typ == Programming.Name() ==> r.answer == "" && r.options.None?
    ensures !IsTypeName(r.typ) ==> r.options == q.options && r.answer == q.answer
  {
    var typ := if q.typ == "" then req.typ else ClassifyType(q.typ).Name();
    var difficulty := if q.difficulty == "" then req.difficulty else ClassifyDifficulty(q.difficulty).Name();
    var language := if q.language == "" then req.language else q.language;
    var base := q.(typ := typ, difficulty := difficulty, language := language);
    if typ == SingleChoice.Name() || typ == MultipleChoice.Name() then
      base.(options := if q.options.None? then DefaultOptions() else q.options,
            answer := CleanAnswer(q.answer))
    else if typ == Programming.Name() then
      base.(answer := "", options := None)
    else
      base
  }

  /** `normalizeQuestions`: every element normalised, in place and in order. */
  function NormalizeQuestions(qs: seq<QuestionRequest>, req: GenerateRequest): (rs: seq<QuestionRequest>)
    ensures |rs| == |qs|
    ensures forall i :: 0 <= i < |qs| ==> rs[i] == NormalizeQuestion(qs[i], req)
  {
    seq(|qs|, i requires 0 <= i < |qs| => NormalizeQuestion(qs[i], req))
  }

  /** An empty field is filled from the request unchanged; anything else ends up canonical. */
  predicate FillIsStable(field: string, fallback: string, canonical: bool) {
    field != "" || fallback == "" || canonical
  }

  /**
   Normalising twice equals normalising once exactly when every value copied
   from the request is already stable: for type and difficulty, the question's
   own value is present or the request's is empty or canonical.
   */
  lemma NormalizeIdempotentIff(q: QuestionRequest, req: GenerateRequest)
    ensures NormalizeQuestion(NormalizeQuestion(q, req), req) == NormalizeQuestion(q, req)
        <==> FillIsStable(q.typ, req.typ, IsTypeName(req.typ))
             && FillIsStable(q.difficulty, req.difficulty, IsDifficultyName(req.difficulty))
  {
    var r1 := NormalizeQuestion(q, req);
    var r2 := NormalizeQuestion(r1, req);
    if FillIsStable(q.typ, req.typ, IsTypeName(req.typ))
       && FillIsStable(q.difficulty, req.difficulty, IsDifficultyName(req.difficulty)) {
      if r1.typ != "" {
        var t: QuestionType :| t.Name() == r1.typ;
        ClassifyTypeOfName(t);
      }
      if r1.difficulty != "" {
        var d: Difficulty :| d.Name() == r1.difficulty;
        ClassifyDifficultyOfName(d);
      }
      CleanAnswerIdempotent(q.answer);
      assert r2 == r1;
    } else if !FillIsStable(q.typ, req.typ, IsTypeName(req.typ)) {
      assert r2.typ == ClassifyType(req.typ).Name();
      assert r2.typ != r1.typ;
    } else {
      assert r2.difficulty == ClassifyDifficulty(req.difficulty).Name();
      assert r2.difficulty != r1.difficulty;
    }
  }

  /** With a canonical request (the shape the client form sends), normalisation is idempotent. */
  lemma NormalizeIdempotent(q: QuestionRequest, req: GenerateRequest)
    requires IsTypeName(req.typ) && IsDifficultyName(req.difficulty)
    ensures NormalizeQuestion(NormalizeQuestion(q, req), req) == NormalizeQuestion(q, req)
  {
    NormalizeIdempotentIff(q, req);
  }

  // ---------------------------------------------------------------------
  // Loosely typed AI output: convertMapToQuestion / convertSingleTempToQuestion
  // ---------------------------------------------------------------------

  /**
   Go's `fmt` verbs on values whose rendering is not modelled: `%v` of a
   number, array or object, and `%.0f` of a number.
   */
  datatype Formatter = Formatter(verbV: JsonValue -> string, fixed0: JsonValue -> string)

  /** `fmt.Sprintf("%v", v)` for a decoded JSON value. */
  function Show(f: Formatter, v: JsonValue): (r: string)
    ensures v.JString? ==> r == v.s
    ensures v.JNull? ==> r == "<nil>"
  {
    match v
    case JString(s) => s
    case JNull => "<nil>"
    case JBool(b) => if b then "true" else "false"
    case _ => f.verbV(v)
  }

  /** What json.Unmarshal makes of a string-valued `options` field decoded into `map[string]string`. */
  datatype OptionsDecoding = OptionsInvalid | OptionsNull | OptionsMap(texts: map<string, string>)

  /** The options branch of the converters, for a question already classified as a choice. */
  function ConvertOptions(v: JsonValue, f: Formatter, decode: string -> OptionsDecoding): (j: Json)
    ensures j.None? <==> v.JString? && !decode(v.s).OptionsMap?
  {
    match v
    case JString(s) =>
      (match decode(s)
       case OptionsMap(texts) => ToModelsJson(texts)
       case _ => None)
    case JObject(fields) => ToModelsJson(map k | k in fields :: Show(f, fields[k]))
    case _ => DefaultOptions()
  }

  /** `fmt.Sprintf("%v", item)` of every element of an array, in order. */
  function ShowAll(f: Formatter, items: seq<JsonValue>): (r: seq<string>)
    ensures |r| == |items|
    ensures forall i :: 0 <= i < |items| ==> r[i] == Show(f, items[i])
  {
    seq(|items|, i requires 0 <= i < |items| => Show(f, items[i]))
  }

  /** The answer branch of the converters: a string as is, an array joined by ",". */
  function ConvertAnswer(v: JsonValue, f: Formatter): (a: string)
    ensures v.JString? ==> a == v.s
    ensures v.JArray? ==> a == Join(ShowAll(f, v.items), ",")
  {
    match v
    case JString(s) => s
    case JArray(items) => Join(ShowAll(f, items), ",")
    case JNumber(_) => f.fixed0(v)
    case _ => Show(f, v)
  }

  /** An array of labels is rendered as the labels joined by "," with nothing added, and splits back into them. */
  lemma AnswerArrayJoin(items: seq<JsonValue>, labels: seq<string>, f: Formatter)
    requires |items| == |labels| >= 1
    requires forall i :: 0 <= i < |items| ==> items[i] == JString(labels[i])
    ensures ConvertAnswer(JArray(items), f) == Join(labels, ",")
    ensures |ConvertAnswer(JArray(items), f)| == SumLengths(labels) + |labels| - 1
    ensures (forall k :: 0 <= k < |labels| ==> ',' !in labels[k])
            ==> Split(ConvertAnswer(JArray(items), f), ',') == labels
  {
    ShowLabels(items, labels, f);
    JoinLength(labels, ',');
    if forall k :: 0 <= k < |labels| ==> ',' !in labels[k] {
      SplitJoin(labels, ',');
    }
  }

  /** String elements are shown as themselves. */
  lemma ShowLabels(items: seq<JsonValue>, labels: seq<string>, f: Formatter)
    requires |items| == |labels|
    requires forall i :: 0 <= i < |items| ==> items[i] == JString(labels[i])
    ensures ShowAll(f, items) == labels
  {
    var shown := ShowAll(f, items);
    assert forall i :: 0 <= i < |labels| ==> shown[i] == labels[i];
  }

  /**
   `convertMapToQuestion`: a present key is used, a missing key falls back to
   the request (type, difficulty, language) or stays empty (content, answer).
   */
  function ConvertMapToQuestion(m: map<string, JsonValue>, req: GenerateRequest, f: Formatter,
                                decode: string -> OptionsDecoding): (q: QuestionRequest)
    ensures "type" in m ==> IsTypeName(q.typ) && q.typ == ClassifyType(Show(f, m["type"])).Name()
    ensures "type" !in m ==> q.typ == req.typ
    ensures "difficulty" in m ==>
              IsDifficultyName(q.difficulty) && q.difficulty == ClassifyDifficulty(Show(f, m["difficulty"])).Name()
    ensures "difficulty" !in m ==> q.difficulty == req.difficulty
    ensures "content" !in m ==> q.content == ""
    ensures "content" in m ==> q.content == Show(f, m["content"])
    ensures "content" in m && m["content"].JString? ==> q.content == m["content"].s
    ensures "answer" !in m ==> q.answer == ""
    ensures "answer" in m ==> q.answer == ConvertAnswer(m["answer"], f)
    ensures !IsChoiceName(q.typ) ==> q.options.None?
    ensures IsChoiceName(q.typ) ==>
              (q.options.None? <==> "options" in m && m["options"].JString? && !decode(m["options"].s).OptionsMap?)
    ensures IsChoiceName(q.typ) && "options" !in m ==> q.options == DefaultOptions()
    ensures q.language == (if "language" in m && m["language"].JString? then m["language"].s else req.language)
  {
    var typ := if "type" in m then ClassifyType(Show(f, m["type"])).Name() else req.typ;
    assert "type" in m ==> IsTypeName(typ);
    QuestionRequest(
      typ := typ,
      content := if "content" in m then Show(f, m["content"]) else "",
      options := if IsChoiceName(typ) then
                   (if "options" in m then ConvertOptions(m["options"], f, decode) else DefaultOptions())
                 else None,
      answer := if "answer" in m then ConvertAnswer(m["answer"], f) else "",
      difficulty := if "difficulty" in m then ClassifyDifficulty(Show(f, m["difficulty"])).Name()
                    else req.difficulty,
      language := if "language" in m && m["language"].JString? then m["language"].s else req.language)
  }

  /** `AIGeneratedQuestionTemp`: every field an `interface{}`; JSON null and a missing key both decode to nil (`JNull`). */
  datatype TempQuestion = TempQuestion(
    typ: JsonValue,
    content: JsonValue,
    options: JsonValue,
    answer: JsonValue,
    difficulty: JsonValue,
    language: JsonValue,
    topic: JsonValue)

  /** Adds `key` unless the value is nil. */
  function PutNonNil(m: map<string, JsonValue>, key: string, v: JsonValue): map<string, JsonValue> {
    if v == JNull then m else m[key := v]
  }

  /** The non-nil fields of a temporary record, under their JSON keys. */
  function TempFields(t: TempQuestion): (m: map<string, JsonValue>)
    ensures "type" in m <==> t.typ != JNull
    ensures "type" in m ==> m["type"] == t.typ
    ensures "content" in m <==> t.content != JNull
    ensures "content" in m ==> m["content"] == t.content
    ensures "options" in m <==> t.options != JNull
    ensures "options" in m ==> m["options"] == t.options
    ensures "answer" in m <==> t.answer != JNull
    ensures "answer" in m ==> m["answer"] == t.answer
    ensures "difficulty" in m <==> t.difficulty != JNull
    ensures "difficulty" in m ==> m["difficulty"] == t.difficulty
    ensures "language" in m <==> t.language != JNull
    ensures "language" in m ==> m["language"] == t.language
  {
    var m1 := PutNonNil(map[], "type", t.typ);
    var m2 := PutNonNil(m1, "content", t.content);
    var m3 := PutNonNil(m2, "options", t.options);
    var m4 := PutNonNil(m3, "answer", t.answer);
    var m5 := PutNonNil(m4, "difficulty", t.difficulty);
    PutNonNil(m5, "language", t.language)
  }

  /**
   `convertSingleTempToQuestion`: the same field rules as the map converter,
   with "present" meaning "not nil".
   */
  function ConvertSingleTempToQuestion(t: TempQuestion, req: GenerateRequest, f: Formatter,
                                       decode: string -> OptionsDecoding): (q: QuestionRequest)
    ensures q == ConvertMapToQuestion(TempFields(t), req, f, decode)
    ensures t.typ == JNull ==> q.typ == req.typ
    ensures t.typ != JNull ==> IsTypeName(q.typ) && q.typ == ClassifyType(Show(f, t.typ)).Name()
    ensures t.difficulty == JNull ==> q.difficulty == req.difficulty
    ensures t.difficulty != JNull ==>
              IsDifficultyName(q.difficulty) && q.difficulty == ClassifyDifficulty(Show(f, t.difficulty)).Name()
    ensures t.content == JNull ==> q.content == ""
    ensures t.answer == JNull ==> q.answer == ""
    ensures t.answer != JNull ==> q.answer == ConvertAnswer(t.answer, f)
    ensures IsChoiceName(q.typ) && t.options == JNull ==> q.options == DefaultOptions()
    ensures t.language.JString? ==> q.language == t.language.s
    ensures !t.language.JString? ==> q.language == req.language
  {
    ConvertMapToQuestion(TempFields(t), req, f, decode)
  }

  /** `convertTempToQuestions`: every record converted, in order. */
  function ConvertTempToQuestions(ts: seq<TempQuestion>, req: GenerateRequest, f: Formatter,
                                  decode: string -> OptionsDecoding): (qs: seq<QuestionRequest>)
    ensures |qs| == |ts|
    ensures forall i :: 0 <= i < |ts| ==> qs[i] == ConvertSingleTempToQuestion(ts[i], req, f, decode)
  {
    seq(|ts|, i requires 0 <= i < |ts| => ConvertSingleTempToQuestion(ts[i], req, f, decode))
  }

  /**
   The two converters part ways on an explicit JSON null answer: the map
   converter renders it with `%v` as "<nil>", the struct converter sees nil
   and leaves the answer empty.
   */
  lemma NullAnswerDiverges(t: TempQuestion, req: GenerateRequest, f: Formatter, decode: string -> OptionsDecoding)
    requires t.answer == JNull
    ensures ConvertSingleTempToQuestion(t, req, f, decode).answer == ""
    ensures ConvertMapToQuestion(map["answer" := JNull], req, f, decode).answer == "<nil>"
  {
  }
}

=== FILE: server_paging.dfy ===
/**
 Pagination of the question list (server/main.go, `Pagination` and the top
 of `getQuestions`): binding of the `page` and `page_size` query parameters,
 the fallback to page 1 of size 10, and the row offset. The query itself runs
 in the database; the page it returns is modelled as a window over the
 sequence of matching rows.
 */
module Paging {
  import opened Common

  const Int64Min: int := -0x8000_0000_0000_0000
  const Int64Max: int := 0x7FFF_FFFF_FFFF_FFFF
  const TwoTo64: int := 0x1_0000_0000_0000_0000

  predicate InInt64(n: int) { Int64Min <= n <= Int64Max }

  /** Go's two's-complement wrap-around of a 64-bit signed `int`. */
  function WrapInt64(x: int): (r: int)
    ensures InInt64(r)
    ensures (r - x) % TwoTo64 == 0
    ensures InInt64(x) ==> r == x
  {
    (x - Int64Min) % TwoTo64 + Int64Min
  }

  /** A query parameter as gin sees it: missing (or empty), not an integer, or an integer. */
  datatype QueryNumber = Absent | Malformed | Number(n: int)

  /**
   gin's form mapping into an `int` field: a missing or empty parameter leaves
   the zero value, a malformed one or one outside 64 bits is an error.
   */
  function BindInt(v: QueryNumber): (r: Option<int>)
    ensures r.Some? ==> InInt64(r.value)
    ensures r.None? <==> v.Malformed? || (v.Number? && !InInt64(v.n))
    ensures v.Absent? ==> r == Some(0)
  {
    match v
    case Absent => Some(0)
    case Malformed => None
    case Number(n) => if InInt64(n) then Some(n) else None
  }

  datatype Pagination = Pagination(page: int, pageSize: int)

  /** The binding tags `min=1` on the page and `min=1,max=100` on the size, in an `int`. */
  predicate ValidPagination(p: Pagination) {
    1 <= p.page <= Int64Max && 1 <= p.pageSize <= 100
  }

  const DefaultPagination: Pagination := Pagination(1, 10)

  /**
   `ShouldBindQuery` into `Pagination`, falling back to page 1 of size 10 on
   any error. A missing parameter binds as 0 and fails its `min=1` tag, so
   the fallback replaces both values even when only one of them is missing.
   */
  function BindPagination(page: QueryNumber, size: QueryNumber): (p: Pagination)
    ensures ValidPagination(p)
    ensures p == DefaultPagination || (page == Number(p.page) && size == Number(p.pageSize))
  {
    match (BindInt(page), BindInt(size))
    case (Some(pg), Some(sz)) =>
      var bound := Pagination(pg, sz);
      if ValidPagination(bound) then bound else DefaultPagination
    case _ => DefaultPagination
  }

  /** A valid pagination sent as two numbers is bound as it was sent. */
  lemma BindEchoesValid(p: Pagination)
    requires ValidPagination(p)
    ensures BindPagination(Number(p.page), Number(p.pageSize)) == p
  {
  }

  /** With either parameter missing, both values fall back to the defaults. */
  lemma BindMissingFallsBack(page: QueryNumber, size: QueryNumber)
    requires page.Absent? || size.Absent?
    ensures BindPagination(page, size) == DefaultPagination
  {
  }

  // ---------------------------------------------------------------------
  // The offset
  // ---------------------------------------------------------------------

  /** `(page-1)*pageSize` as Go computes it, in a 64-bit `int`. */
  function OffsetAsWritten(p: Pagination): (o: int)
    ensures InInt64(o)
  {
    WrapInt64((p.page - 1) * p.pageSize)
  }

  /** The offset the page is meant to start at: the rows of all earlier pages. */
  function Offset(p: Pagination): (o: nat)
    requires ValidPagination(p)
    ensures o >= p.page - 1
    ensures p.page == 1 <==> o == 0
  {
    (p.page - 1) * p.pageSize
  }

  /** Each page starts where the previous one ends. */
  lemma NextPageOffset(p: Pagination)
    requires ValidPagination(p) && p.page < Int64Max
    ensures Offset(Pagination(p.page + 1, p.pageSize)) == Offset(p) + p.pageSize
  {
    assert p.page * p.pageSize == (p.page - 1) * p.pageSize + p.pageSize;
  }

  /** The Go expression gives the intended offset as long as the product fits in 64 bits. */
  lemma OffsetAsWrittenInRange(p: Pagination)
    requires ValidPagination(p) && Offset(p) <= Int64Max
    ensures OffsetAsWritten(p) == Offset(p)
  {
  }

  /**
   The page `2^62 + 1` with size 100 passes binding, but its offset
   `2^62 * 100 = 25 * 2^64` wraps to 0 in Go, so the request is answered
   with the first page's rows instead of an empty page.
   */
  lemma OffsetWrapsForHugePage()
    ensures var p := Pagination(0x4000_0000_0000_0001, 100);
            && BindPagination(Number(p.page), Number(p.pageSize)) == p
            && OffsetAsWritten(p) == 0
            && Offset(p) == 25 * TwoTo64
  {
    var p := Pagination(0x4000_0000_0000_0001, 100);
    BindEchoesValid(p);
    assert (p.page - 1) * p.pageSize == 25 * TwoTo64;
  }

  // ---------------------------------------------------------------------
  // The page of rows
  // ---------------------------------------------------------------------

  function Min(a: int, b: int): int { if a <= b then a else b }

  /** `Offset(off).Limit(limit)` over the matching rows in query order. */
  function Window<T>(rows: seq<T>, off: nat, limit: nat): (w: seq<T>)
    ensures |w| == Min(limit, if |rows| >= off then |rows| - off else 0)
    ensures forall k :: 0 <= k < |w| ==> off + k < |rows| && w[k] == rows[off + k]
  {
    if off >= |rows| then [] else rows[off..Min(off + limit, |rows|)]
  }

  /** The rows the page of a bound pagination is meant to hold. */
  function PageOf<T>(rows: seq<T>, p: Pagination): seq<T>
    requires ValidPagination(p)
  {
    Window(rows, Offset(p), p.pageSize)
  }

  /** Row `q * size + r` of the matching rows is row `r` of page `q + 1`. */
  lemma RowOnPage<T>(rows: seq<T>, size: int, q: nat, r: nat)
    requires 1 <= size <= 100 && r < size && q < Int64Max && q * size + r < |rows|
    ensures var p := Pagination(q + 1, size);
            ValidPagination(p) && r < |PageOf(rows, p)| && PageOf(rows, p)[r] == rows[q * size + r]
  {
    var p := Pagination(q + 1, size);
    assert Offset(p) == q * size;
  }

  /** Pages 1 to `n` one after another. */
  function FirstPages<T>(rows: seq<T>, size: int, n: nat): seq<T>
    requires 1 <= size <= 100 && n <= Int64Max
  {
    if n == 0 then [] else FirstPages(rows, size, n - 1) + PageOf(rows, Pagination(n, size))
  }

  /** Reading pages 1 to `n` in order gives the first `n * size` rows, each once. */
  lemma {:induction false} PagesTile<T>(rows: seq<T>, size: int, n: nat)
    requires 1 <= size <= 100 && n <= Int64Max
    ensures FirstPages(rows, size, n) == rows[..Min(n * size, |rows|)]
  {
    if n > 0 {
      PagesTile(rows, size, n - 1);
      var p := Pagination(n, size);
      var a := Min((n - 1) * size, |rows|);
      var b := Min(n * size, |rows|);
      assert Offset(p) == (n - 1) * size;
      assert PageOf(rows, p) == rows[a..b];
      assert rows[..a] + rows[a..b] == rows[..b];
    }
  }
}

=== FILE: text.dfy ===
/**
 The handful of Go `strings`/`fmt` and JavaScript `String` operations the
 question bank relies on, over strings as sequences of code points.
 Case mapping is ASCII-only (see README, "Left out").
 */
module Text {

  // ---------------------------------------------------------------------
  // Whitespace and trimming (Go's strings.TrimSpace)
  // ---------------------------------------------------------------------

  /** Go's `unicode.IsSpace`: the Latin-1 spaces plus the Unicode White_Space characters. */
  predicate IsSpace(c: char) {
    || c == ' ' || c == '\t' || c == '\n' || c == '\r' || c == '\U{B}' || c == '\U{C}'
    || c == '\U{85}' || c == '\U{A0}' || c == '\U{1680}'
    || ('\U{2000}' <= c <= '\U{200A}')
    || c == '\U{2028}' || c == '\U{2029}' || c == '\U{202F}' || c == '\U{205F}' || c == '\U{3000}'
  }

  /** Drops leading white space. */
  function TrimLeft(s: string): (r: string)
    ensures |r| <= |s| && r == s[|s| - |r|..]
    ensures forall i :: 0 <= i < |s| - |r| ==> IsSpace(s[i])
    ensures r == [] || !IsSpace(r[0])
    decreases |s|
  {
    if |s| > 0 && IsSpace(s[0]) then TrimLeft(s[1..]) else s
  }

  /** Drops trailing white space. */
  function TrimRight(s: string): (r: string)
    ensures |r| <= |s| && r == s[..|r|]
    ensures forall i :: |r| <= i < |s| ==> IsSpace(s[i])
    ensures r == [] || !IsSpace(r[|r| - 1])
    decreases |s|
  {
    if |s| > 0 && IsSpace(s[|s| - 1]) then TrimRight(s[..|s| - 1]) else s
  }

  /** `r` sits at offset `a` of `s` and everything around it is white space. */
  predicate PaddedAt(s: string, a: int, r: string) {
    && 0 <= a && a + |r| <= |s|
    && s[a..a + |r|] == r
    && (forall i :: 0 <= i < a ==> IsSpace(s[i]))
    && (forall i :: a + |r| <= i < |s| ==> IsSpace(s[i]))
  }

  /** Neither end of `s` is white space. */
  predicate Trimmed(s: string) {
    s == [] || (!IsSpace(s[0]) && !IsSpace(s[|s| - 1]))
  }

  /** Go's `strings.TrimSpace`: the part of `s` between its leading and trailing white space. */
  function TrimSpace(s: string): (r: string)
    ensures Trimmed(r)
    ensures PaddedAt(s, |s| - |TrimLeft(s)|, r)
  {
    var l := TrimLeft(s);
    var r := TrimRight(l);
    TrimBothEnds(s, l, r);
    r
  }

  /** Trimming the left, then the right, leaves a trimmed middle surrounded by white space. */
  lemma TrimBothEnds(s: string, l: string, r: string)
    requires |l| <= |s| && l == s[|s| - |l|..]
    requires forall i :: 0 <= i < |s| - |l| ==> IsSpace(s[i])
    requires l == [] || !IsSpace(l[0])
    requires |r| <= |l| && r == l[..|r|]
    requires forall i :: |r| <= i < |l| ==> IsSpace(l[i])
    requires r == [] || !IsSpace(r[|r| - 1])
    ensures Trimmed(r)
    ensures PaddedAt(s, |s| - |l|, r)
  {
    var a := |s| - |l|;
    assert r == l[..|r|];
    assert s[a..a + |r|] == r by {
      assert s[a..a + |r|] == s[a..][..|r|];
    }
    forall i | a + |r| <= i < |s|
      ensures IsSpace(s[i])
    {
      assert s[i] == l[i - a];
    }
    if r != [] {
      assert r[0] == l[0];
    }
  }

  /** Trimming only removes white space: a string with no white space at its ends is left alone. */
  lemma TrimSpaceKeepsTrimmed(s: string)
    requires Trimmed(s)
    ensures TrimSpace(s) == s
  {
  }

  /** Trimming twice is trimming once. */
  lemma TrimSpaceIdempotent(s: string)
    ensures TrimSpace(TrimSpace(s)) == TrimSpace(s)
  {
    TrimSpaceKeepsTrimmed(TrimSpace(s));
  }

  // ---------------------------------------------------------------------
  // ASCII case mapping (Go's strings.ToLower / strings.ToUpper)
  // ---------------------------------------------------------------------

  predicate IsAsciiLower(c: char) { 'a' <= c <= 'z' }

  predicate IsAsciiUpper(c: char) { 'A' <= c <= 'Z' }

  function LowerChar(c: char): char {
    if IsAsciiUpper(c) then (c as int + 32) as char else c
  }

  function UpperChar(c: char): char {
    if IsAsciiLower(c) then (c as int - 32) as char else c
  }

  function ToLower(s: string): (r: string)
    ensures |r| == |s|
  {
    seq(|s|, i requires 0 <= i < |s| => LowerChar(s[i]))
  }

  function ToUpper(s: string): (r: string)
    ensures |r| == |s|
  {
    seq(|s|, i requires 0 <= i < |s| => UpperChar(s[i]))
  }

  /** No lower-case ASCII letter occurs in `s`. */
  predicate NoLowerCase(s: string) {
    forall i :: 0 <= i < |s| ==> !IsAsciiLower(s[i])
  }

  /** Upper-casing leaves no lower-case letter and keeps every other character in place. */
  lemma ToUpperMeaning(s: string)
    ensures NoLowerCase(ToUpper(s))
    ensures forall i :: 0 <= i < |s| && !IsAsciiLower(s[i]) ==> ToUpper(s)[i] == s[i]
  {
  }

  /** Lower-casing forgets an earlier upper-casing: the two differ only in case. */
  lemma LowerOfUpper(s: string)
    ensures ToLower(ToUpper(s)) == ToLower(s)
  {
  }

  // ---------------------------------------------------------------------
  // Substring search (Go's strings.Contains)
  // ---------------------------------------------------------------------

  /** `sub` occurs in `s` starting at index `i`. */
  predicate OccursAt(s: string, sub: string, i: int) {
    0 <= i && i + |sub| <= |s| && s[i..i + |sub|] == sub
  }

  /** Go's `strings.Contains`: `sub` occurs somewhere in `s`. */
  predicate Contains(s: string, sub: string) {
    exists i | 0 <= i <= |s| - |sub| :: OccursAt(s, sub, i)
  }

  /** A string containing no character `c` cannot contain a pattern in which `c` occurs. */
  lemma NotContainsMissingChar(s: string, sub: string, c: char)
    requires c in sub && c !in s
    ensures !Contains(s, sub)
  {
    var k :| 0 <= k < |sub| && sub[k] == c;
  }

  /** A string contains each of its prefixes. */
  lemma ContainsPrefix(s: string, sub: string)
    requires sub <= s
    ensures Contains(s, sub)
  {
    assert s[0..|sub|] == sub;
    assert OccursAt(s, sub, 0);
  }

  /** A string contains anything that occurs in it, wherever it is embedded. */
  lemma ContainsInfix(x: string, sub: string, y: string)
    ensures Contains(x + sub + y, sub)
  {
    var s := x + sub + y;
    assert s[|x|..|x| + |sub|] == sub;
    assert OccursAt(s, sub, |x|);
  }

  // ---------------------------------------------------------------------
  // Replacement (Go's strings.ReplaceAll with a non-empty pattern)
  // ---------------------------------------------------------------------

  /** Replaces the leftmost non-overlapping occurrences of `pat`, scanning left to right. */
  function ReplaceAll(s: string, pat: string, rep: string): string
    requires |pat| > 0
    decreases |s|
  {
    if |s| < |pat| then s
    else if pat <= s then rep + ReplaceAll(s[|pat|..], pat, rep)
    else [s[0]] + ReplaceAll(s[1..], pat, rep)
  }

  /** Reference definition: `s` with every occurrence of the character `c` dropped. */
  function Without(s: string, c: char): (r: string)
    ensures c !in r
    ensures |r| <= |s|
    decreases |s|
  {
    if s == [] then []
    else if s[0] == c then Without(s[1..], c)
    else [s[0]] + Without(s[1..], c)
  }

  /** Replacing a one-character pattern by nothing is dropping that character. */
  lemma {:induction false} ReplaceCharByNothing(s: string, c: char)
    ensures ReplaceAll(s, [c], "") == Without(s, c)
    decreases |s|
  {
    if s != [] {
      ReplaceCharByNothing(s[1..], c);
    }
  }

  /** Without a single occurrence of the pattern, replacement changes nothing. */
  lemma {:induction false} ReplaceAllAbsent(s: string, pat: string, rep: string)
    requires |pat| > 0 && !Contains(s, pat)
    ensures ReplaceAll(s, pat, rep) == s
    decreases |s|
  {
    if |s| >= |pat| {
      assert !OccursAt(s, pat, 0);
      forall i | 0 <= i <= |s[1..]| - |pat|
        ensures !OccursAt(s[1..], pat, i)
      {
        assert !OccursAt(s, pat, i + 1);
        assert s[1..][i..i + |pat|] == s[i + 1..i + 1 + |pat|];
      }
      ReplaceAllAbsent(s[1..], pat, rep);
      assert s == [s[0]] + s[1..];
    }
  }

  // ---------------------------------------------------------------------
  // Split and join (JavaScript's String.split / Array.join, Go's strings.Join)
  // ---------------------------------------------------------------------

  /** Position of the first `c` in `s`. */
  function IndexOf(s: string, c: char): (i: nat)
    requires c in s
    ensures i < |s| && s[i] == c && c !in s[..i]
  {
    if s[0] == c then 0
    else
      var j := IndexOf(s[1..], c);
      assert s[..j + 1] == [s[0]] + s[1..][..j];
      1 + j
  }

  /** JavaScript's `s.split(sep)` for a one-character separator: always at least one part. */
  function Split(s: string, sep: char): (parts: seq<string>)
    ensures |parts| >= 1
    ensures forall k :: 0 <= k < |parts| ==> sep !in parts[k]
    decreases |s|
  {
    if sep !in s then [s]
    else
      var i := IndexOf(s, sep);
      [s[..i]] + Split(s[i + 1..], sep)
  }

  /** JavaScript's `parts.join(sep)` and Go's `strings.Join(parts, sep)`. */
  function Join(parts: seq<string>, sep: string): string
    decreases |parts|
  {
    if |parts| == 0 then ""
    else if |parts| == 1 then parts[0]
    else parts[0] + sep + Join(parts[1..], sep)
  }

  /** Joining with a one-character separator inserts exactly one character between neighbours and nothing else. */
  lemma {:induction false} JoinLength(parts: seq<string>, sep: char)
    requires |parts| >= 1
    ensures |Join(parts, [sep])| == SumLengths(parts) + |parts| - 1
    decreases |parts|
  {
    if |parts| > 1 {
      JoinLength(parts[1..], sep);
    }
  }

  function SumLengths(parts: seq<string>): nat
    decreases |parts|
  {
    if parts == [] then 0 else |parts[0]| + SumLengths(parts[1..])
  }

  /** Joining a head onto at least one more part puts one separator after the head. */
  lemma JoinCons(head: string, rest: seq<string>, sep: string)
    requires |rest| >= 1
    ensures Join([head] + rest, sep) == head + sep + Join(rest, sep)
  {
    assert ([head] + rest)[1..] == rest;
  }

  /** Splitting and re-joining on the same separator gives the string back, for every string. */
  lemma {:induction false} JoinSplit(s: string, sep: char)
    ensures Join(Split(s, sep), [sep]) == s
    decreases |s|
  {
    if sep in s {
      var i := IndexOf(s, sep);
      var rest := Split(s[i + 1..], sep);
      JoinSplit(s[i + 1..], sep);
      JoinCons(s[..i], rest, [sep]);
      assert s == s[..i] + [sep] + s[i + 1..];
    }
  }

  /** Joining parts free of the separator and splitting again gives the parts back. */
  lemma {:induction false} SplitJoin(parts: seq<string>, sep: char)
    requires |parts| >= 1
    requires forall k :: 0 <= k < |parts| ==> sep !in parts[k]
    ensures Split(Join(parts, [sep]), sep) == parts
    decreases |parts|
  {
    if |parts| > 1 {
      var rest := parts[1..];
      assert parts == [parts[0]] + rest;
      JoinCons(parts[0], rest, [sep]);
      SplitAtFirst(parts[0], Join(rest, [sep]), sep);
      SplitJoin(rest, sep);
    }
  }

  /** A string cut at its first separator splits into that first piece and the splits of the rest. */
  lemma SplitAtFirst(head: string, tail: string, sep: char)
    requires sep !in head
    ensures Split(head + [sep] + tail, sep) == [head] + Split(tail, sep)
  {
    var s := head + [sep] + tail;
    assert s[|head|] == sep;
    var i := IndexOf(s, sep);
    assert s[..i] == head;
    assert s[i + 1..] == tail;
  }

  // ---------------------------------------------------------------------
  // Decimal rendering (Go's fmt %d for a positive int)
  // ---------------------------------------------------------------------

  predicate IsDigit(c: char) { '0' <= c <= '9' }

  function DigitChar(d: nat): (c: char)
    requires d < 10
    ensures IsDigit(c)
  {
    (48 + d) as char
  }

  /** The decimal numeral of `n`: non-empty, all digits, no leading zero. */
  function Decimal(n: nat): (r: string)
    ensures |r| >= 1
    ensures forall i :: 0 <= i < |r| ==> IsDigit(r[i])
    ensures r[0] == '0' ==> n == 0
    decreases n
  {
    if n < 10 then [DigitChar(n)] else Decimal(n / 10) + [DigitChar(n % 10)]
  }

  /** Reads a numeral back. */
  function DecimalValue(s: string): int
    decreases |s|
  {
    if s == [] then 0 else DecimalValue(s[..|s| - 1]) * 10 + (s[|s| - 1] as int - 48)
  }

  /** Reading back a rendered number gives the number. */
  lemma {:induction false} DecimalRoundTrip(n: nat)
    ensures DecimalValue(Decimal(n)) == n
    decreases n
  {
    if n >= 10 {
      DecimalRoundTrip(n / 10);
      var r := Decimal(n);
      assert r[..|r| - 1] == Decimal(n / 10);
    }
  }

  /** Different numbers render differently. */
  lemma DecimalInjective(a: nat, b: nat)
    requires a != b
    ensures Decimal(a) != Decimal(b)
  {
    DecimalRoundTrip(a);
    DecimalRoundTrip(b);
  }
}
